=== FILE: README.md ===
# Archivador core, modelled in Dafny

This project models the four file-handling engines of Archivador, a Python
desktop tool that tidies folders:

- `FileOrganizer` files the direct children of a base folder into
  sub-folders. The sub-folder is chosen by extension rules or by creation
  date. Each file may be renamed on the way: duplicate marks are stripped,
  one space transform is applied, and a prefix and date are added.
- `DuplicateHandler` walks a folder tree and hashes every file. It keeps
  the first path seen for each digest and moves every later file with the
  same digest into `duplicates/`.
- `FileCollector` walks a source tree. It drops files with excluded name
  prefixes or extensions and moves every remaining file whose extension
  belongs to a configured category into `dest/category`.
- `FolderAnalyzer` walks a tree and records, for each directory, the
  summed size of its direct files, its file count and its sub-folder
  count. It also lists every file with its size, stably sorted by size.

The three movers share one naming rule. A file that should be called
`desired` keeps that name when the destination has no entry of that name.
Otherwise it gets `base_k.ext`, where `(base, ext)` is `os.path.splitext`
of the desired name and `k ≥ 1` is the least counter whose name is free. The
module `Placement` proves this rule terminates by a pigeonhole argument. The
first `|taken| + 1` candidates are pairwise distinct, because the decimal
rendering of the counter is injective, so one of them must be free.

The filesystem is abstract. It is a map from `(directory, name)` to an
entry. A file entry holds its content bytes, its creation timestamp and
three failure flags:

- whether it can be opened, which decides whether hashing succeeds;
- whether `getsize` succeeds;
- whether `shutil.move` raises on it, and with which message.

A directory listing and an `os.walk` are input sequences in the order the
operating system would produce them. The digest is an arbitrary function
from content to a digest type `D`, standing for SHA-256 in hex.

Modules, in dependency order:

| module | file | contents |
|---|---|---|
| `Wrappers` | wrappers.dfy | `Option`, `Result` |
| `Text` | text.dfy | ASCII case mapping, `str.replace`, `rfind`, `str(n)` and zero padding with their read-back lemmas |
| `Paths` | paths.dfy | `os.path.join`, `basename`, `splitext`, the dotless lower-case extension |
| `Placement` | placement.dfy | the collision-safe naming rule and its pigeonhole proof |
| `Dates` | dates.dfy | timestamps, `_format_date`, `_matches_range` |
| `Classification` | classification.dfy | the organiser's extension rule table and its precedence |
| `Renaming` | renaming.dfy | `_clean_name` and `_rename_file` |
| `FileSystem` | filesystem.dfy | the abstract filesystem and `shutil.move` |
| `Buckets` | buckets.dfy | the insertion-ordered `dict` of lists behind `moved_files` |
| `Organizer` | organizer.dfy | `FileOrganizer` |
| `Duplicates` | duplicates.dfy | `DuplicateHandler` |
| `Collector` | collector.dfy | `FileCollector` |
| `Analyzer` | analyzer.dfy | `FolderAnalyzer` |

Behaviour the model keeps exactly as the code has it, although it may
surprise:

- Range mode uses `_format_date` with the mode `"range"`. So a file that
  passes the range filter always goes to `UnknownDate`.
- The range end is compared against midnight of the end day. A file created
  later on the end day is skipped.
- In the organiser, `renamed_count` grows before the move. So a file whose
  move then fails still counts as renamed.
- The organiser's nested rules are not first-match. A flat match stops the
  scan, but a nested match only sets the folder, and a later nested match
  overrides it.
- The collector skips a category named `""` exactly like a missing one,
  because both are falsy.
- In the duplicate scan, a directory is skipped when the quarantine path
  occurs anywhere in its path. This also skips a sibling such as
  `duplicates_old`.
- A failing move in the duplicate scan is not caught. It ends the scan, and
  the file has already been counted in `files_processed`. The model returns
  `Aborted` with the state at that point.
- The suffix counter is always applied to the original name's
  `splitext`. Suffixes never pile up as `a_1_1.txt`.

## Model

| member | source | states |
|---|---|---|
| Text.LowerStr | core/file_organizer.py:119 | `.lower()` keeps the length and maps each character to its lower case |
| Text.UpperStr | core/folder_analyzer.py:23 | `.upper()` keeps the length and maps each character to its upper case |
| Text.ReplaceChar | core/file_organizer.py:70 | `replace(" ", "_")` keeps the length; each space becomes `_` and every other character is kept |
| Text.RemoveChar | core/file_organizer.py:68 | `replace(" ", "")` leaves no space, never grows, is the identity on space-free input and shrinks any input that has a space |
| Text.RemoveCharAppend | core/file_organizer.py:68 | `replace(" ", "")` works character by character: it distributes over concatenation and keeps a single character exactly when it is not a space |
| Text.Decimal | core/file_organizer.py:102 | the counter's rendering is a non-empty digit string that is one digit long exactly for values below ten |
| Text.DecimalNoLeadingZero | core/file_organizer.py:102 | the rendered counter has no leading zero: it starts with `0` only for zero, so `base_12.ext` and never `base_012.ext` |
| Text.DecimalRoundTrip | core/file_organizer.py:102 | reading the rendered counter back gives the counter |
| Text.DecimalInjective | core/file_organizer.py:102 | two counters with the same rendering are equal, which the pigeonhole proof needs |
| Text.PadRoundTrip | core/file_organizer.py:48 | a zero-padded `strftime` field reads back as the field's value |
| Paths.Join | core/file_organizer.py:140 | `os.path.join` returns an absolute second part unchanged; otherwise the result starts with the first part and ends with the second |
| Paths.JoinSeparator | core/file_organizer.py:140 | for a relative second part, `join` is plain concatenation exactly when the first part is empty or ends in `/`, and otherwise inserts one `/` |
| Paths.Basename | core/duplicates.py:101 | `basename` contains no `/`, is a suffix of the path, and is the whole path when the path has no `/` |
| Paths.BasenameAfterSeparator | core/duplicates.py:101 | the basename is the whole path, or exactly what follows the path's last `/` |
| Paths.BasenameOfJoin | core/duplicates.py:76-101 | the basename of `join(dirpath, filename)` is the listed file name again |
| Paths.SplitExt | core/file_organizer.py:76 | `splitext` cuts the name into two parts that concatenate back to it; the extension is empty or one dot with no further dot or `/`; a non-empty extension has a non-dot character before it in the final component, so leading dots are not an extension |
| Paths.SplitExtFindsExtension | core/file_organizer.py:76 | a dot in the final component with a non-dot character before it always yields an extension, which starts at the last dot |
| Paths.DotlessExt | core/file_organizer.py:119 | the lower-cased extension without its dot is, character by character, the lower case of the `splitext` extension after its dot; it is empty when there is no extension and has no dot and no upper-case letter |
| Placement.CandidateInjective | core/file_organizer.py:102 | different counters give different `base_k.ext` names |
| Placement.CandidateIsNotDesired | core/duplicates.py:105-108 | a candidate `base_k.ext` never equals the desired name it is derived from |
| Placement.CandidatesSize | core/file_organizer.py:101-104 | the first `n` candidates are `n` distinct names |
| Placement.Pigeonhole | core/file_organizer.py:101-104 | if the first `n` candidates all exist, the folder holds at least `n` names |
| Placement.LeastFreeFrom | core/file_organizer.py:98-104 | the probing loop that starts at a counter whose predecessors are taken returns a counter no larger than one more than the number of taken names; its result is free and every earlier candidate is taken |
| Placement.LeastFree | core/file_organizer.py:98-104 | the counter is the least `k ≥ 1` whose candidate is free, and it is at most one more than the number of taken names |
| Placement.ChooseName | core/file_organizer.py:95-105 | the chosen name never exists in the folder, and it is the desired name whenever that one is free |
| Placement.ChooseNameCandidate | core/file_organizer.py:97-104 | a taken desired name is replaced by some `base_k.ext` whose predecessors are all taken, with `1 ≤ k` and `k` at most one more than the number of taken names |
| Placement.NextPlacement | core/filecollector.py:64-69 | when the desired name and candidates `1..m` are taken and candidate `m+1` is free, the choice is candidate `m+1`: the least free counter is unique |
| Placement.CandidateKeepsExtension | core/filecollector.py:65-68 | the counter goes between stem and extension: `splitext` of `base_k.ext` is `(base_k, ext)` |
| Placement.PlaceManyFresh | core/duplicates.py:101-111 | placing files one after another into a folder never reuses a name: the chosen names are pairwise distinct and none existed before |
| Placement.PlaceManyNames | core/duplicates.py:104-108 | `n` files wanting the same free name into a folder without its first candidates get `desired, base_1.ext, …, base_(n-1).ext`: the suffix is not cumulative |
| Placement.PlaceManyAfter | core/duplicates.py:104-109 | once the desired name and candidates `1..m` are taken, the next `n` files get candidates `m+1..m+n` in order |
| Dates.FormatDate | core/file_organizer.py:45-55 | each mode's label has the `strftime` shape (`YYYY-MM-DD_HH-MM`, `YYYY-MM-DD`, `YYYY-MM`, `YYYY`), and any other mode gives `UnknownDate` |
| Dates.LabelFields | core/file_organizer.py:47-54 | the digits at each field position of the full label read back as that field of the timestamp |
| Dates.LabelsNest | core/file_organizer.py:47-54 | the year label starts the month label, which starts the day label, which starts the full label |
| Dates.MatchesRange | core/file_organizer.py:57-62 | with no range the filter is false; otherwise it holds iff the day lies within the range and, on the end day, the time is exactly midnight |
| Classification.FirstSub | core/file_organizer.py:130-133 | a nested rule yields its first sub-category listing the extension, or none when no sub-category lists it |
| Classification.Classify | core/file_organizer.py:122-133 | the folder is `Otros` or one that a category claiming the extension offers: a matching flat category's name or a nested `category/sub` |
| Classification.ClassifyFromRange | core/file_organizer.py:124-133 | from any current folder, the loop ends on that folder or on a folder some matching category offers |
| Classification.ClassifyFromPrecedence | core/file_organizer.py:124-133 | from any current folder, the loop gives the first flat match if there is one, else the last nested match, else the current folder |
| Classification.ClassifyPrecedence | core/file_organizer.py:122-133 | with rules configured, the folder is the first matching flat category, else the last matching nested `category/sub`, else `Otros` |
| Renaming.MarkLen | core/file_organizer.py:66 | the length of the `\s\(\d+\)` match at the start of a string, which is the only possible match length there, or 0 when there is none |
| Renaming.StripMarks | core/file_organizer.py:66 | removing every duplicate mark never lengthens the stem, and leaves it unchanged exactly when it holds no mark; with `Renaming.StripMarksSkip` at the first mark this determines the result for every stem |
| Renaming.StripMarksSkip | core/file_organizer.py:66 | a mark is removed whole, the text before it is kept as it is (spaces included) when no mark starts inside that text, and scanning resumes right after the removed match |
| Renaming.StripMarksExample | core/file_organizer.py:66 | the copy name `My File (1)` becomes `My File`: the mark goes and the inner space stays |
| Renaming.CamelJoin | core/file_organizer.py:72 | the camel substitution never lengthens the stem and is the identity on space-free stems; `Renaming.CamelJoinSpace`, `Renaming.CamelJoinTrailing` and `Renaming.CamelJoinNewline` fix it at the first space |
| Renaming.CamelJoinSpace | core/file_organizer.py:72 | each space followed by a character other than a newline is dropped and that character upper-cased; the space-free text before it is kept |
| Renaming.CamelJoinTrailing | core/file_organizer.py:72 | a space that ends the stem joins nothing and is kept, with the space-free text before it; the later space removal then drops it, so `Report ` becomes `Report` |
| Renaming.CamelJoinNewline | core/file_organizer.py:72 | a space before a newline is kept (`.` does not match a newline) and scanning resumes at the newline; with the two lemmas above this fixes the substitution on every stem, by the position of its first space |
| Renaming.CleanName | core/file_organizer.py:64-73 | remove, replace and camel each leave no space; replace alone keeps the length; with nothing on, the stem is unchanged; a stem with no space and no mark is unchanged |
| Renaming.ComposeStem | core/file_organizer.py:84-88 | the prefix and date only go in front: the cleaned stem ends the new stem, which equals it exactly when neither a date nor a prefix is configured |
| Renaming.CleanNamePrecedence | core/file_organizer.py:67-72 | the space options are exclusive and tried in order: removing spaces overrides replacing and camel case, and replacing overrides camel case |
| Renaming.RenameFile | core/file_organizer.py:75-93 | the new name ends with the original `splitext` extension; a change is reported exactly when the new stem differs from the original stem; with nothing configured the name is kept |
| Renaming.RenameFileDated | core/file_organizer.py:84-86 | with `add_date`, the new name is `prefix_YYYY-MM-DD_` followed by the cleaned stem and the original extension, with a leading `_` when the prefix is empty |
| Renaming.RenameFilePrefixed | core/file_organizer.py:87-88 | with a prefix and no date, the new name is `prefix_` followed by the cleaned stem and the original extension |
| Renaming.RenameFilePlain | core/file_organizer.py:76-93 | with neither prefix nor date, the new stem is the cleaned stem |
| FileSystem.Names | core/file_organizer.py:101 | a name is in the folder's name set iff `os.path.exists` holds for it there |
| FileSystem.Move | core/file_organizer.py:106 | `shutil.move` fails exactly when the source is missing, with `[Errno 2] No such file or directory: '<path>'`, or when the file carries its own error; otherwise the record moves to the destination, every other entry is unchanged, and the entry count is kept when the destination was free |
| FileSystem.MoveError | core/file_organizer.py:106 | the message a move raises: the not-found message naming the joined source path for a missing source, the file's own error for a file, and none for a folder |
| Buckets.Keys | core/file_organizer.py:159 | `list(d.keys())` lists the keys in insertion order |
| Buckets.Append | core/file_organizer.py:107 | `setdefault(key, []).append(item)` puts the item at the end of that key's list and leaves every other list unchanged |
| Buckets.AppendKeys | core/file_organizer.py:107 | a new key joins the end of the key order; a known key keeps its place |
| Buckets.AppendTotal | core/file_organizer.py:157 | the sum of the list lengths grows by exactly one |
| Buckets.AppendWellFormed | core/filecollector.py:72 | the keys stay distinct and every list stays non-empty |
| Buckets.FirstLookup | core/file_organizer.py:159-160 | in a well-formed dictionary each key's entry is its own non-empty list |
| Organizer.TargetFolder | core/file_organizer.py:121-138 | rules, when configured, take priority over the date mode; range mode skips a file outside the range and labels every other file `UnknownDate`; other modes use their date label; with neither rules nor mode the folder is `Otros` |
| Organizer.ProcessEntry | core/file_organizer.py:112-146 | a non-file, or a file range mode skips, changes nothing; a handled file counts as renamed iff its stem changed; it is moved exactly when the operating system accepts its move, under a free name of the destination with the same record, and that path is appended to the destination's list; otherwise `name: message` with the file's own message is recorded and nothing else changes |
| Organizer.MoveInto | core/file_organizer.py:106-107 | when the move raises nothing, the record moves to the free name and its path is appended under the folder; when it raises, exactly `name: message` is added and nothing else changes |
| Organizer.MoveIntoInvariants | core/file_organizer.py:106-107 | a move to a free name loses no entry, changes no entry but the source (so nothing outside the source's folder), keeps the per-folder lists well formed and adds exactly one move or one error |
| Organizer.ProcessEntryInvariants | core/file_organizer.py:112-146 | one entry loses no entry, changes no entry but itself (so nothing outside the base folder), and adds one move or one error exactly when the entry is handled |
| Organizer.OrganizeFromInvariants | core/file_organizer.py:112-146 | over a whole run: no entry is lost, nothing outside the base folder changes, moves plus errors and renames are each at most the number of listed entries, and errors only accumulate |
| Organizer.Organize | core/file_organizer.py:109-148 | a run from the empty record loses no entry, changes nothing outside the base folder, keeps the per-folder lists well formed, and has moves plus errors and renames each at most the number of listed entries |
| Organizer.GetResults | core/file_organizer.py:150-162 | `total_moved` is the number of recorded paths; with a well-formed dictionary each created folder is listed once, in order, with its own non-empty list |
| Organizer.OrganizeResults | core/file_organizer.py:150-162 | in the report, moves plus errors are at most the number of entries, each created folder is listed once, and each listed folder received a file |
| Duplicates.ComputeHash | core/duplicates.py:43-62 | the hash is present iff the file exists and can be opened, and it is then the digest of its content |
| Duplicates.MoveToDuplicates | core/duplicates.py:94-111 | the move fails exactly when `shutil.move` raises, with its message; a successful move puts the file under a name not previously in the quarantine folder, removes the source, keeps every other entry, and keeps the entry count |
| Duplicates.ScanFile | core/duplicates.py:75-90 | an unhashable file is skipped uncounted; a new digest records this path as the original; a known digest keeps the recorded original, the file lands with the same record under the free quarantine name, and it is listed only after its move returned; the scan aborts, with the file counted and the move's message, exactly when the file is a duplicate whose move raises |
| Duplicates.ScanFileInvariants | core/duplicates.py:79-90 | from balanced counters, a file keeps them balanced iff the scan does not abort; the digest set grows by this file's digest exactly when it is counted; recorded originals are never replaced; only this file's entry can change |
| Duplicates.ScanFileProgress | core/duplicates.py:75-90 | one file keeps the run's invariant: balanced counters until an abort, originals kept, the list only grows at its end, no entry lost |
| Duplicates.ScanFilesProgress | core/duplicates.py:75-90 | the same invariant over all the files of one directory |
| Duplicates.ScanWalkProgress | core/duplicates.py:71-90 | the same invariant over the whole walk, with skipped directories |
| Duplicates.ScanAndMoveDuplicates | core/duplicates.py:64-92 | after a completed scan `files_processed == len(hashes) + len(duplicates_moved)`; after an abort it is one more; no entry is lost |
| Duplicates.ScanCounts | core/duplicates.py:131-137 | in the report of a completed scan `total_files == unique_files + duplicate_files`; after an abort it is one more |
| Duplicates.SkipsQuarantine | core/duplicates.py:72-73 | the quarantine folder and every path that extends its path string are skipped, which includes siblings such as `duplicates_old` |
| Duplicates.GetResults | core/duplicates.py:131-137 | the report carries the processed count, the number of recorded originals, the duplicate count and the duplicate list itself; the counts add up exactly when the counters are balanced |
| Collector.ExclusionOf | core/filecollector.py:29-38 | without a configuration both defaults apply; with one, each key falls back to its own default independently |
| Collector.DefaultExclusions | core/filecollector.py:16-17 | under the defaults, names starting with `.`, `~` or `$` are not valid |
| Collector.IsValidFile | core/filecollector.py:45-52 | a file is valid iff its name starts with none of the excluded prefixes and its lower-cased dotless extension is not excluded |
| Collector.MatchCategory | core/filecollector.py:54-58 | the result is none iff no category lists the lower-cased extension; otherwise it is the first category in configuration order that lists it |
| Collector.CategoryOf | core/filecollector.py:79-86 | a valid file whose first matching category has a non-empty name gets that category; an invalid file, an unmatched one or one matched to `""` gets none |
| Collector.MoveInto | core/filecollector.py:71-72 | when the move raises nothing, the record moves to the free name and its path is appended under the category; when it raises, exactly `name: message` is added and nothing else changes |
| Collector.MoveIntoInvariants | core/filecollector.py:71-72 | a move to a free name loses no entry, changes no entry but the source, keeps the lists well formed and adds one move or one error |
| Collector.CollectFile | core/filecollector.py:60-92 | a skipped file changes nothing; a valid, categorised file whose move raises nothing lands under a free name in `dest/category` with the same record, and its path is appended to the category's list; when the move raises, `name: message` with that message is recorded and nothing else changes |
| Collector.CollectFileInvariants | core/filecollector.py:79-92 | one file loses no entry, changes no entry but itself, keeps the lists well formed, and adds at most one move or error |
| Collector.CollectFilesKept | core/filecollector.py:78-92 | over one directory: no entry lost, lists well formed, moves plus errors at most the file count, errors only accumulate |
| Collector.CollectWalkKept | core/filecollector.py:77-92 | the same over the whole walk, bounded by the number of walked files |
| Collector.Collect | core/filecollector.py:74-94 | a run from the empty record loses no entry, keeps the per-category lists well formed, and has moves plus errors at most the walked files |
| Collector.GetResults | core/filecollector.py:113-116 | `total_files_moved` is the number of recorded paths; with a well-formed dictionary each category is listed once, in order, with its own non-empty list |
| Collector.CollectResults | core/filecollector.py:113-115 | each reported category is listed once and received at least one file, moves plus errors are at most the walked files, and no entry is lost |
| Analyzer.UnitDivisor | core/folder_analyzer.py:23-26 | after upper-casing, B, KB, MB and GB divide by 1, 1024, 1024² and 1024³; an unknown unit falls back to 1024² |
| Analyzer.UnitAnyCase | core/folder_analyzer.py:23-26 | a unit in lower, upper or mixed case gives the same unit name and the same divisor |
| Analyzer.SizeOf | core/folder_analyzer.py:31-36 | a readable file's size is its content length; when `getsize` fails it is 0 |
| Analyzer.SumSizesAppend | core/folder_analyzer.py:90 | the byte total of two lists is the sum of their totals |
| Analyzer.DirEntries | core/folder_analyzer.py:45-50 | each listed file of a directory yields one `(join(root, file), size)` entry, in order |
| Analyzer.WalkEntriesSize | core/folder_analyzer.py:91 | the number of entries is the number of walked files |
| Analyzer.Scan | core/folder_analyzer.py:38-54 | for any walk, `file_data` holds one entry per listed file in walk order and `folder_data` has a record for exactly the walked directories |
| Analyzer.ScanFromFiles | core/folder_analyzer.py:45-49 | each step appends its directory's entries, so the scan appends exactly the walk's entries |
| Analyzer.ScanFromDirs | core/folder_analyzer.py:52-54 | the scan adds a record for each walked directory and for no other |
| Analyzer.WalkedDirsMembers | core/folder_analyzer.py:40 | a directory is among the walked ones iff some step of the walk visits it |
| Analyzer.ScanFromFacts | core/folder_analyzer.py:40-54 | the scan appends exactly the walk's entries and records each walked directory's size, file count and sub-folder count |
| Analyzer.ScanKeepsUnwalked | core/folder_analyzer.py:52-54 | a directory the rest of the walk does not visit keeps its record |
| Analyzer.EntriesMatchFolders | core/folder_analyzer.py:41-52 | the byte total of all entries equals the sum of the per-directory sizes |
| Analyzer.ScanTotals | core/folder_analyzer.py:38-54 | after a full scan: the entries are the walk's files, their count is the number of walked files, each directory's record is its own sums and counts, and total bytes equal the sum of directory sizes |
| Analyzer.Insert | core/folder_analyzer.py:74-76 | inserting an entry adds exactly that entry (as a multiset) |
| Analyzer.InsertSorted | core/folder_analyzer.py:74-76 | insertion keeps a size-ordered list ordered |
| Analyzer.InsertWithSize | core/folder_analyzer.py:74-76 | among entries of any one size, the inserted entry comes first and the others keep their order |
| Analyzer.SortBySize | core/folder_analyzer.py:74-76 | the sort is a permutation of its input |
| Analyzer.SortBySizeCorrect | core/folder_analyzer.py:74-76 | the sort orders by size and is stable: entries of equal size keep their input order |
| Analyzer.GetResults | core/folder_analyzer.py:74-96 | `top_files` is a permutation of `file_data`, non-increasing for `desc` and non-decreasing otherwise, stable on ties; the totals are the entry count and byte sum; the unit is the upper-cased name; `folders_info` is the scan's own per-directory record, so what `Analyzer.Scan`, `Analyzer.ScanFromFacts` and `Analyzer.ScanTotals` prove about it holds for the report |

## Left out

- Real I/O is not modelled: `os.listdir`, `os.walk`, `getctime`, `getsize` and opening files. The listing and the walk are inputs. The creation time, content and failure flags are fields of the file record.
- `os.makedirs` is not modelled, nor its failures. A destination folder exists implicitly once a name is placed in it.
- `os.path.abspath` and other path normalisation are not modelled. Paths are compared as plain strings.
- `shutil.move` across devices and onto directories is not modelled. A move renames one map key; whether it fails, and with which message, is a flag of the file record.
- SHA-256 and the block-wise reading in `_compute_file_hash` are not modelled. The digest is an arbitrary function of the content, and an unopenable file gives `None`.
- Timing is not modelled: `time.time`, `duration_seconds`, `total_time` and the `isoformat` timestamps. The report datatypes omit them.
- `_convert_size` is not modelled, because it is floating-point division and rounding. Sizes and totals stay in whole bytes, and only the divisor is modelled.
- `_log` and its debug printing are left out, because they are console output only.
- `strptime` of the date range is not modelled. The range is given already parsed, so a malformed range string, which would turn into a per-file error, is not covered.
- `strftime` is modelled for zero-padded integer fields only. Label shapes are stated for years 1000..9999 and valid calendar instants.
- Exceptions other than a failing move are not modelled: a failing `getctime`, `makedirs` or `strptime` inside the organiser's `try`.
- FileSystem.Move: the path in the not-found message is written verbatim between single quotes. Python's `repr` would switch to double quotes, or escape characters, for a path holding a quote, a backslash or a non-printable character.
- `.upper()`, `.lower()`, `\s` and `\d` are modelled on ASCII only.
- Paths follow `posixpath`: `/` is the only separator. On Windows, `ntpath` also splits on `\`, joins with `\` and treats drive letters specially; that is not modelled.
- The rename key `use_creation_date` is read by the source but never used, so it is not part of the configuration.
- Rules that are neither lists nor dicts are modelled. The organiser ignores them, through `Classification.Rules.Other`. A nested sub-category's extensions are a list; a string value, where `ext in exts` (`core/file_organizer.py:130-131`) would test for a substring, is not modelled. For the collector, a category's extensions are a list of strings; a string value, where `in` would test for a substring, is not modelled.
- `main.py`, `core/menu.py`, `core/rich_logger.py` and `utils/folders.py` are outside the modelled core: mode dispatch, prompts, styled console output and a folder-picker dialog.
- Duplicates.ScanAndMoveDuplicates: relates `unique_files` to the recorded digests only through counts. That the recorded digest set is exactly the set of digests of the counted files is stated per file, in `Duplicates.ScanFileInvariants`, and not as one statement over the whole walk.
- Analyzer.ScanTotals: requires each directory to occur once in the walk, as `os.walk` guarantees. With a repeated directory, `_scan` would overwrite that directory's record, and the model would do the same.

=== FILE: analyzer.dfy ===
/** `FolderAnalyzer`: per-directory sizes and counts over a walk, the list of
    every file with its size, and that list sorted by size. Sizes are whole
    bytes; the conversion to the display unit is left out. */
module Analyzer {
  import opened Text
  import opened Paths
  import opened FileSystem

  /** The display unit: `unit.upper()`, kept as given even when unknown. */
  function UnitName(unit: string): string {
    UpperStr(unit)
  }

  const KiB: nat := 1024

  /** The divisor `_convert_size` uses: B, KB, MB and GB after upper-casing,
      any other unit falling back to the MB divisor. */
  function UnitDivisor(unit: string): (r: nat)
    ensures UnitName(unit) == "B" ==> r == 1
    ensures UnitName(unit) == "KB" ==> r == KiB
    ensures UnitName(unit) == "MB" ==> r == KiB * KiB
    ensures UnitName(unit) == "GB" ==> r == KiB * KiB * KiB
    ensures UnitName(unit) !in {"B", "KB", "GB"} ==> r == KiB * KiB
  {
    var u := UnitName(unit);
    if u == "B" then 1
    else if u == "KB" then KiB
    else if u == "MB" then KiB * KiB
    else if u == "GB" then KiB * KiB * KiB
    else KiB * KiB
  }

  /** Upper-casing makes the unit case-insensitive: a unit spelled in lower,
      upper or mixed case selects the same name and divisor. */
  lemma UnitAnyCase(unit: string)
    ensures UnitName(LowerStr(unit)) == UnitName(unit) == UnitName(UpperStr(unit))
    ensures UnitDivisor(LowerStr(unit)) == UnitDivisor(unit) == UnitDivisor(UpperStr(unit))
  {
    var lo := UnitName(LowerStr(unit));
    var up := UnitName(UpperStr(unit));
    var u := UnitName(unit);
    forall i | 0 <= i < |unit|
      ensures lo[i] == u[i] && up[i] == u[i]
    {
      var c := unit[i];
      assert LowerStr(unit)[i] == Lower(c) && UpperStr(unit)[i] == Upper(c);
    }
  }

  /** `_get_size`: the file's size in bytes, or 0 when `getsize` raises. */
  function SizeOf(fs: Fs, k: Key): (r: nat)
    ensures IsFile(fs, k) && fs[k].info.statable ==> r == |fs[k].info.content|
    ensures !IsFile(fs, k) || !fs[k].info.statable ==> r == 0
  {
    if IsFile(fs, k) && fs[k].info.statable then |fs[k].info.content| else 0
  }

  /** One `(path, size)` pair of `file_data`. */
  datatype FileEntry = FileEntry(path: Path, size: nat)

  /** One value of `folder_data`. */
  datatype FolderInfo = FolderInfo(size: nat, files: nat, folders: nat)

  /** The analyser's collected data. */
  datatype Analysis = Analysis(files: seq<FileEntry>, folders: map<Path, FolderInfo>)

  function SumSizes(es: seq<FileEntry>): nat {
    if |es| == 0 then 0 else es[0].size + SumSizes(es[1..])
  }

  lemma {:induction false} SumSizesAppend(a: seq<FileEntry>, b: seq<FileEntry>)
    ensures SumSizes(a + b) == SumSizes(a) + SumSizes(b)
    decreases |a|
  {
    if |a| == 0 {
      assert a + b == b;
    } else {
      assert (a + b)[1..] == a[1..] + b;
      SumSizesAppend(a[1..], b);
    }
  }

  /** The entries one walked directory contributes, one per listed file. */
  function DirEntries(fs: Fs, step: WalkStep): (r: seq<FileEntry>)
    ensures |r| == |step.files|
    ensures forall i :: 0 <= i < |r| ==>
              r[i] == FileEntry(Join(step.dir, step.files[i]), SizeOf(fs, Key(step.dir, step.files[i])))
  {
    seq(|step.files|, i requires 0 <= i < |step.files| =>
      FileEntry(Join(step.dir, step.files[i]), SizeOf(fs, Key(step.dir, step.files[i]))))
  }

  /** One iteration of `_scan`: the directory's files are appended to
      `file_data` and its record is (re)written. */
  function ScanStep(fs: Fs, a: Analysis, step: WalkStep): Analysis {
    var es := DirEntries(fs, step);
    Analysis(a.files + es, a.folders[step.dir := FolderInfo(SumSizes(es), |step.files|, |step.subdirs|)])
  }

  function ScanFrom(fs: Fs, a: Analysis, walk: seq<WalkStep>): Analysis
    decreases |walk|
  {
    if |walk| == 0 then a else ScanFrom(fs, ScanStep(fs, a, walk[0]), walk[1..])
  }

  /** `_scan` over the walk `os.walk(base)` would produce: one entry per
      listed file, in walk order, and a record for exactly the walked
      directories. */
  function Scan(fs: Fs, walk: seq<WalkStep>): (r: Analysis)
    ensures r.files == WalkEntries(fs, walk)
    ensures |r.files| == WalkSize(walk)
    ensures r.folders.Keys == WalkedDirs(walk)
  {
    var empty := Analysis([], map[]);
    ScanFromFiles(fs, empty, walk);
    ScanFromDirs(fs, empty, walk);
    WalkEntriesSize(fs, walk);
    assert empty.files + WalkEntries(fs, walk) == WalkEntries(fs, walk);
    ScanFrom(fs, empty, walk)
  }

  /** The directories a walk visits. */
  function WalkedDirs(walk: seq<WalkStep>): set<Path>
    decreases |walk|
  {
    if |walk| == 0 then {} else {walk[0].dir} + WalkedDirs(walk[1..])
  }

  /** A directory is walked exactly when some step of the walk visits it. */
  lemma {:induction false} WalkedDirsMembers(walk: seq<WalkStep>, p: Path)
    ensures p in WalkedDirs(walk) <==> exists i :: 0 <= i < |walk| && walk[i].dir == p
    decreases |walk|
  {
    if |walk| > 0 {
      WalkedDirsMembers(walk[1..], p);
      if p in WalkedDirs(walk[1..]) {
        var i :| 0 <= i < |walk[1..]| && walk[1..][i].dir == p;
        assert walk[i + 1].dir == p;
      }
      if exists i :: 0 <= i < |walk| && walk[i].dir == p {
        var i :| 0 <= i < |walk| && walk[i].dir == p;
        if i > 0 {
          assert walk[1..][i - 1].dir == p;
        }
      }
    }
  }

  /** Whatever the walk, the scan appends exactly the walk's entries ... */
  lemma {:induction false} ScanFromFiles(fs: Fs, a: Analysis, walk: seq<WalkStep>)
    ensures ScanFrom(fs, a, walk).files == a.files + WalkEntries(fs, walk)
    decreases |walk|
  {
    if |walk| > 0 {
      var a' := ScanStep(fs, a, walk[0]);
      ScanFromFiles(fs, a', walk[1..]);
      EntriesAssoc(a.files, DirEntries(fs, walk[0]), WalkEntries(fs, walk[1..]));
    }
  }

  lemma EntriesAssoc(x: seq<FileEntry>, y: seq<FileEntry>, z: seq<FileEntry>)
    ensures (x + y) + z == x + (y + z)
  {
  }

  /** ... and adds a record for each walked directory and for no other. */
  lemma {:induction false} ScanFromDirs(fs: Fs, a: Analysis, walk: seq<WalkStep>)
    ensures ScanFrom(fs, a, walk).folders.Keys == a.folders.Keys + WalkedDirs(walk)
    decreases |walk|
  {
    if |walk| > 0 {
      var a' := ScanStep(fs, a, walk[0]);
      ScanFromDirs(fs, a', walk[1..]);
      assert a'.folders.Keys == a.folders.Keys + {walk[0].dir};
    }
  }

  /** Each directory is walked once. */
  predicate DistinctDirs(walk: seq<WalkStep>) {
    forall i, j :: 0 <= i < j < |walk| ==> walk[i].dir != walk[j].dir
  }

  /** The entries a walk contributes, directory after directory. */
  function WalkEntries(fs: Fs, walk: seq<WalkStep>): seq<FileEntry>
    decreases |walk|
  {
    if |walk| == 0 then [] else DirEntries(fs, walk[0]) + WalkEntries(fs, walk[1..])
  }

  /** The sum of the recorded directory sizes over the walked directories. */
  function FolderSizeSum(walk: seq<WalkStep>, folders: map<Path, FolderInfo>): nat
    requires forall i :: 0 <= i < |walk| ==> walk[i].dir in folders
    decreases |walk|
  {
    if |walk| == 0 then 0 else folders[walk[0].dir].size + FolderSizeSum(walk[1..], folders)
  }

  lemma {:induction false} WalkEntriesSize(fs: Fs, walk: seq<WalkStep>)
    ensures |WalkEntries(fs, walk)| == WalkSize(walk)
    decreases |walk|
  {
    if |walk| > 0 {
      WalkEntriesSize(fs, walk[1..]);
    }
  }

  /** The scan appends exactly the walk's entries, and records every walked
      directory with the size, file count and sub-folder count of its own
      step; a directory not walked keeps its previous record. */
  lemma {:induction false} ScanFromFacts(fs: Fs, a: Analysis, walk: seq<WalkStep>)
    requires DistinctDirs(walk)
    ensures ScanFrom(fs, a, walk).files == a.files + WalkEntries(fs, walk)
    ensures forall i :: 0 <= i < |walk| ==>
              walk[i].dir in ScanFrom(fs, a, walk).folders
              && ScanFrom(fs, a, walk).folders[walk[i].dir]
                 == FolderInfo(SumSizes(DirEntries(fs, walk[i])), |walk[i].files|, |walk[i].subdirs|)
    decreases |walk|
  {
    if |walk| > 0 {
      var a' := ScanStep(fs, a, walk[0]);
      var rest := walk[1..];
      assert DistinctDirs(rest);
      ScanFromFacts(fs, a', rest);
      var r := ScanFrom(fs, a', rest);
      EntriesAssoc(a.files, DirEntries(fs, walk[0]), WalkEntries(fs, rest));
      ScanKeepsUnwalked(fs, a', rest, walk[0].dir);
      forall i | 1 <= i < |walk|
        ensures walk[i].dir in r.folders
        ensures r.folders[walk[i].dir]
                == FolderInfo(SumSizes(DirEntries(fs, walk[i])), |walk[i].files|, |walk[i].subdirs|)
      {
        assert rest[i - 1] == walk[i];
      }
    }
  }

  /** A directory the remaining walk does not visit keeps its record. */
  lemma {:induction false} ScanKeepsUnwalked(fs: Fs, a: Analysis, walk: seq<WalkStep>, dir: Path)
    requires dir in a.folders
    requires forall i :: 0 <= i < |walk| ==> walk[i].dir != dir
    ensures dir in ScanFrom(fs, a, walk).folders
    ensures ScanFrom(fs, a, walk).folders[dir] == a.folders[dir]
    decreases |walk|
  {
    if |walk| > 0 {
      ScanKeepsUnwalked(fs, ScanStep(fs, a, walk[0]), walk[1..], dir);
    }
  }

  /** The total bytes over `file_data` equal the sum of the per-directory sizes. */
  lemma {:induction false} EntriesMatchFolders(fs: Fs, walk: seq<WalkStep>, folders: map<Path, FolderInfo>)
    requires forall i :: 0 <= i < |walk| ==>
               walk[i].dir in folders && folders[walk[i].dir].size == SumSizes(DirEntries(fs, walk[i]))
    ensures SumSizes(WalkEntries(fs, walk)) == FolderSizeSum(walk, folders)
    decreases |walk|
  {
    if |walk| > 0 {
      SumSizesAppend(DirEntries(fs, walk[0]), WalkEntries(fs, walk[1..]));
      EntriesMatchFolders(fs, walk[1..], folders);
    }
  }

  /** `_scan` from empty data over a walk that visits each directory once:
      every listed file yields one entry, `total_files` is the number of
      listed files, each directory's record holds the sum of its direct
      files' sizes and its file and sub-folder counts, and the byte total
      equals the sum of the directory sizes. */
  lemma ScanTotals(fs: Fs, walk: seq<WalkStep>)
    requires DistinctDirs(walk)
    ensures var a := Scan(fs, walk);
      && a.files == WalkEntries(fs, walk)
      && |a.files| == WalkSize(walk)
      && (forall i :: 0 <= i < |walk| ==>
            walk[i].dir in a.folders
            && a.folders[walk[i].dir] == FolderInfo(SumSizes(DirEntries(fs, walk[i])), |walk[i].files|, |walk[i].subdirs|))
      && SumSizes(a.files) == FolderSizeSum(walk, a.folders)
  {
    var a := Scan(fs, walk);
    ScanFromFacts(fs, Analysis([], map[]), walk);
    assert [] + WalkEntries(fs, walk) == WalkEntries(fs, walk);
    WalkEntriesSize(fs, walk);
    EntriesMatchFolders(fs, walk, a.folders);
  }

  /** The order `sorted(..., key=size, reverse=desc)` produces: `a` may come
      before `b`. */
  predicate InOrder(desc: bool, a: FileEntry, b: FileEntry) {
    if desc then a.size >= b.size else a.size <= b.size
  }

  predicate Sorted(desc: bool, s: seq<FileEntry>) {
    forall i, j :: 0 <= i < j < |s| ==> InOrder(desc, s[i], s[j])
  }

  /** The entries of size `k`, in their order in `s`. */
  function WithSize(s: seq<FileEntry>, k: nat): seq<FileEntry> {
    if |s| == 0 then [] else (if s[0].size == k then [s[0]] else []) + WithSize(s[1..], k)
  }

  /** Inserts `x` before the first entry it may precede, so that `x` stays
      ahead of the entries of equal size. */
  function Insert(desc: bool, x: FileEntry, s: seq<FileEntry>): (r: seq<FileEntry>)
    ensures multiset(r) == multiset(s) + multiset{x}
    decreases |s|
  {
    if |s| == 0 || InOrder(desc, x, s[0]) then [x] + s
    else
      assert s == [s[0]] + s[1..];
      [s[0]] + Insert(desc, x, s[1..])
  }

  /** Insertion keeps a sorted sequence sorted. */
  lemma {:induction false} InsertSorted(desc: bool, x: FileEntry, s: seq<FileEntry>)
    requires Sorted(desc, s)
    ensures Sorted(desc, Insert(desc, x, s))
    decreases |s|
  {
    if |s| > 0 && !InOrder(desc, x, s[0]) {
      var rest := Insert(desc, x, s[1..]);
      InsertSorted(desc, x, s[1..]);
      var r := [s[0]] + rest;
      forall j | 0 < j < |r|
        ensures InOrder(desc, s[0], r[j])
      {
        assert r[j] in multiset(rest);
        assert r[j] in multiset(s[1..]) + multiset{x};
        if r[j] != x {
          assert r[j] in multiset(s[1..]);
          var m :| 0 <= m < |s[1..]| && s[1..][m] == r[j];
          assert s[m + 1] == r[j];
        }
      }
    }
  }

  /** Among the entries of any one size, `x` comes first and the rest keep
      their order. */
  lemma {:induction false} InsertWithSize(desc: bool, x: FileEntry, s: seq<FileEntry>, k: nat)
    ensures WithSize(Insert(desc, x, s), k) == (if x.size == k then [x] else []) + WithSize(s, k)
    decreases |s|
  {
    if |s| == 0 || InOrder(desc, x, s[0]) {
      WithSizeCons(x, s, k);
    } else {
      var rest := Insert(desc, x, s[1..]);
      InsertWithSize(desc, x, s[1..], k);
      WithSizeCons(s[0], rest, k);
      WithSizeCons(s[0], s[1..], k);
      assert s == [s[0]] + s[1..];
    }
  }

  /** Filtering a sequence with one entry in front. */
  lemma WithSizeCons(x: FileEntry, s: seq<FileEntry>, k: nat)
    ensures WithSize([x] + s, k) == (if x.size == k then [x] else []) + WithSize(s, k)
  {
    assert ([x] + s)[1..] == s;
  }

  /** The stable sort by size, descending when `desc`. */
  function SortBySize(desc: bool, s: seq<FileEntry>): (r: seq<FileEntry>)
    ensures multiset(r) == multiset(s)
    decreases |s|
  {
    if |s| == 0 then []
    else
      assert s == [s[0]] + s[1..];
      Insert(desc, s[0], SortBySize(desc, s[1..]))
  }

  /** The sort orders by size and is stable: the entries of each size keep
      their original relative order. */
  lemma {:induction false} SortBySizeCorrect(desc: bool, s: seq<FileEntry>)
    ensures Sorted(desc, SortBySize(desc, s))
    ensures forall k :: WithSize(SortBySize(desc, s), k) == WithSize(s, k)
    decreases |s|
  {
    if |s| > 0 {
      var t := SortBySize(desc, s[1..]);
      SortBySizeCorrect(desc, s[1..]);
      InsertSorted(desc, s[0], t);
      forall k ensures WithSize(SortBySize(desc, s), k) == WithSize(s, k) {
        InsertWithSize(desc, s[0], t, k);
      }
    }
  }

  /** The summary `_get_results` returns, with sizes in bytes. */
  datatype Results = Results(unit: string, totalBytes: nat, totalFiles: nat,
                             topFiles: seq<FileEntry>, folders: map<Path, FolderInfo>)

  /** `_get_results`: `top_files` is `file_data` sorted by size, largest
      first exactly when the order is "desc", files of equal size keeping
      their walk order; the totals count and sum `file_data`, and
      `folders_info` is the per-directory record the scan built. */
  function GetResults(unit: string, order: string, a: Analysis): (r: Results)
    ensures multiset(r.topFiles) == multiset(a.files)
    ensures order == "desc" ==> forall i, j :: 0 <= i < j < |r.topFiles| ==> r.topFiles[i].size >= r.topFiles[j].size
    ensures order != "desc" ==> forall i, j :: 0 <= i < j < |r.topFiles| ==> r.topFiles[i].size <= r.topFiles[j].size
    ensures forall k :: WithSize(r.topFiles, k) == WithSize(a.files, k)
    ensures r.totalFiles == |a.files| && r.totalBytes == SumSizes(a.files)
    ensures r.unit == UnitName(unit)
    ensures r.folders == a.folders
  {
    SortBySizeCorrect(order == "desc", a.files);
    Results(UnitName(unit), SumSizes(a.files), |a.files|, SortBySize(order == "desc", a.files), a.folders)
  }
}

=== FILE: buckets.dfy ===
/** `moved_files.setdefault(key, []).append(path)`: an insertion-ordered
    dictionary from a folder or category to the list of paths moved there. */
module Buckets {

  datatype Bucket = Bucket(key: string, items: seq<string>)

  /** The dictionary's keys in insertion order (`list(d.keys())`). */
  function Keys(bs: seq<Bucket>): (r: seq<string>)
    ensures |r| == |bs|
    ensures forall i :: 0 <= i < |bs| ==> r[i] == bs[i].key
  {
    if |bs| == 0 then [] else [bs[0].key] + Keys(bs[1..])
  }

  /** The list stored under `key`, or the empty list. */
  function Lookup(bs: seq<Bucket>, key: string): seq<string> {
    if |bs| == 0 then []
    else if bs[0].key == key then bs[0].items
    else Lookup(bs[1..], key)
  }

  /** `sum(len(v) for v in d.values())`. */
  function Total(bs: seq<Bucket>): nat {
    if |bs| == 0 then 0 else |bs[0].items| + Total(bs[1..])
  }

  /** Keys are distinct and every list is non-empty, as `setdefault` followed
      by `append` leaves them. */
  predicate WellFormed(bs: seq<Bucket>) {
    && (forall i, j :: 0 <= i < j < |bs| ==> bs[i].key != bs[j].key)
    && (forall i :: 0 <= i < |bs| ==> |bs[i].items| > 0)
  }

  /** `d.setdefault(key, []).append(item)`: the item goes at the end of the
      list under `key` and every other list stays as it was. */
  function Append(bs: seq<Bucket>, key: string, item: string): (r: seq<Bucket>)
    ensures Lookup(r, key) == Lookup(bs, key) + [item]
    ensures forall k :: k != key ==> Lookup(r, k) == Lookup(bs, k)
  {
    if |bs| == 0 then [Bucket(key, [item])]
    else if bs[0].key == key then [Bucket(key, bs[0].items + [item])] + bs[1..]
    else [bs[0]] + Append(bs[1..], key, item)
  }

  /** A new key goes at the end of the key order; a known key keeps its place. */
  lemma {:induction false} AppendKeys(bs: seq<Bucket>, key: string, item: string)
    ensures Keys(Append(bs, key, item)) == if key in Keys(bs) then Keys(bs) else Keys(bs) + [key]
    decreases |bs|
  {
    if |bs| > 0 && bs[0].key != key {
      AppendKeys(bs[1..], key, item);
      assert Keys(bs) == [bs[0].key] + Keys(bs[1..]);
    }
  }

  /** The total number of stored items grows by one. */
  lemma {:induction false} AppendTotal(bs: seq<Bucket>, key: string, item: string)
    ensures Total(Append(bs, key, item)) == Total(bs) + 1
    decreases |bs|
  {
    if |bs| > 0 && bs[0].key != key {
      AppendTotal(bs[1..], key, item);
    }
  }

  /** Appending keeps every list non-empty. */
  lemma {:induction false} AppendNonEmpty(bs: seq<Bucket>, key: string, item: string)
    requires forall i :: 0 <= i < |bs| ==> |bs[i].items| > 0
    ensures forall i :: 0 <= i < |Append(bs, key, item)| ==> |Append(bs, key, item)[i].items| > 0
    decreases |bs|
  {
    var r := Append(bs, key, item);
    if |bs| > 0 && bs[0].key == key {
      forall i | 0 < i < |r|
        ensures |r[i].items| > 0
      {
        assert r[i] == bs[i];
      }
    } else if |bs| > 0 {
      var rest := Append(bs[1..], key, item);
      AppendNonEmpty(bs[1..], key, item);
      forall i | 0 < i < |r|
        ensures |r[i].items| > 0
      {
        assert r[i] == rest[i - 1];
      }
    }
  }

  /** Appending keeps the keys distinct and the lists non-empty. */
  lemma AppendWellFormed(bs: seq<Bucket>, key: string, item: string)
    requires WellFormed(bs)
    ensures WellFormed(Append(bs, key, item))
  {
    var r := Append(bs, key, item);
    AppendKeys(bs, key, item);
    AppendNonEmpty(bs, key, item);
    var ks := Keys(r);
    var before := Keys(bs);
    forall i, j | 0 <= i < j < |r|
      ensures r[i].key != r[j].key
    {
      assert ks[i] == r[i].key && ks[j] == r[j].key;
      if j < |bs| {
        assert ks[i] == before[i] && ks[j] == before[j];
      } else {
        assert ks[i] == before[i] && ks[j] == key && key !in before;
      }
    }
  }

  /** In a well-formed dictionary the list found under each key is that
      key's own, non-empty list. */
  lemma {:induction false} FirstLookup(bs: seq<Bucket>)
    requires WellFormed(bs)
    ensures forall i :: 0 <= i < |bs| ==> Lookup(bs, bs[i].key) == bs[i].items
  {
    if |bs| > 0 {
      assert WellFormed(bs[1..]);
      FirstLookup(bs[1..]);
      forall i | 0 < i < |bs|
        ensures Lookup(bs, bs[i].key) == bs[i].items
      {
        assert bs[i].key != bs[0].key;
        assert bs[1..][i - 1] == bs[i];
      }
    }
  }
}

=== FILE: classification.dfy ===
/** The extension classifier of the organiser: an ordered rule table whose
    entries are either a flat list of extensions or a one-level mapping of
    sub-categories to extension lists. */
module Classification {
  import opened Wrappers
  import opened Paths

  /** One sub-category of a nested rule. */
  datatype SubRule = SubRule(name: string, exts: seq<string>)

  /** The value a category maps to. `Other` is any value that is neither a
      list nor a dict; the classifier passes over it. */
  datatype Rules = Flat(exts: seq<string>) | Nested(subs: seq<SubRule>) | Other

  /** One entry of the (insertion-ordered) extension configuration. */
  datatype Category = Category(name: string, rules: Rules)

  /** The folder of files no rule claims. */
  const DefaultFolder := "Otros"

  /** The first sub-category whose list contains `ext`. */
  function FirstSub(subs: seq<SubRule>, ext: string): (r: Option<string>)
    ensures r.None? <==> forall i :: 0 <= i < |subs| ==> ext !in subs[i].exts
    ensures r.Some? ==> exists i :: 0 <= i < |subs| && ext in subs[i].exts && subs[i].name == r.value
                          && forall j :: 0 <= j < i ==> ext !in subs[j].exts
  {
    if |subs| == 0 then None
    else if ext in subs[0].exts then Some(subs[0].name)
    else
      var r := FirstSub(subs[1..], ext);
      assert forall i :: 1 <= i < |subs| ==> subs[1..][i - 1] == subs[i];
      r
  }

  /** A flat category whose list contains `ext`. */
  predicate FlatHit(c: Category, ext: string) {
    c.rules.Flat? && ext in c.rules.exts
  }

  /** The folder a nested category offers for `ext`: `category/sub` for its
      first matching sub-category. */
  function NestedHit(c: Category, ext: string): Option<string> {
    if c.rules.Nested? then
      match FirstSub(c.rules.subs, ext)
      case Some(sub) => Some(Join(c.name, sub))
      case None => None
    else None
  }

  /** The classification loop from a given current folder: a flat match sets
      the folder and breaks; a nested match sets the folder and the loop goes on. */
  function ClassifyFrom(cats: seq<Category>, ext: string, folder: string): string {
    if |cats| == 0 then folder
    else if FlatHit(cats[0], ext) then cats[0].name
    else
      var next := match NestedHit(cats[0], ext) case Some(f) => f case None => folder;
      ClassifyFrom(cats[1..], ext, next)
  }

  /** Some category claims `ext` and offers the folder `f`. */
  predicate Offers(cats: seq<Category>, ext: string, f: string) {
    exists i :: 0 <= i < |cats| && ((FlatHit(cats[i], ext) && f == cats[i].name) || NestedHit(cats[i], ext) == Some(f))
  }

  /** The folder (relative to the base) an extension is filed under: "Otros"
      or a folder that a category claiming the extension offers. */
  function Classify(cats: seq<Category>, ext: string): (r: string)
    ensures r == DefaultFolder || Offers(cats, ext, r)
  {
    ClassifyFromRange(cats, ext, DefaultFolder);
    ClassifyFrom(cats, ext, DefaultFolder)
  }

  /** The loop only ever picks the starting folder or an offered one. */
  lemma {:induction false} ClassifyFromRange(cats: seq<Category>, ext: string, folder: string)
    ensures ClassifyFrom(cats, ext, folder) == folder || Offers(cats, ext, ClassifyFrom(cats, ext, folder))
    decreases |cats|
  {
    if |cats| > 0 && !FlatHit(cats[0], ext) {
      var next := match NestedHit(cats[0], ext) case Some(f) => f case None => folder;
      var rest := cats[1..];
      var r := ClassifyFrom(rest, ext, next);
      ClassifyFromRange(rest, ext, next);
      if Offers(rest, ext, r) {
        var i :| 0 <= i < |rest| && ((FlatHit(rest[i], ext) && r == rest[i].name) || NestedHit(rest[i], ext) == Some(r));
        assert rest[i] == cats[i + 1];
        assert Offers(cats, ext, r);
      } else if r != folder {
        assert NestedHit(cats[0], ext) == Some(r);
        assert Offers(cats, ext, r);
      }
    }
  }

  /** The precedence the loop implements: the first flat match wins if there
      is one; otherwise the last nested match; otherwise the starting folder. */
  lemma {:induction false} ClassifyFromPrecedence(cats: seq<Category>, ext: string, folder: string)
    ensures forall i :: 0 <= i < |cats| && FlatHit(cats[i], ext)
                        && (forall j :: 0 <= j < i ==> !FlatHit(cats[j], ext))
                        ==> ClassifyFrom(cats, ext, folder) == cats[i].name
    ensures (forall i :: 0 <= i < |cats| ==> !FlatHit(cats[i], ext)) ==>
              forall i :: 0 <= i < |cats| && NestedHit(cats[i], ext).Some?
                          && (forall j :: i < j < |cats| ==> NestedHit(cats[j], ext).None?)
                          ==> ClassifyFrom(cats, ext, folder) == NestedHit(cats[i], ext).value
    ensures (forall i :: 0 <= i < |cats| ==> !FlatHit(cats[i], ext) && NestedHit(cats[i], ext).None?)
              ==> ClassifyFrom(cats, ext, folder) == folder
    decreases |cats|
  {
    if |cats| > 0 && !FlatHit(cats[0], ext) {
      var next := match NestedHit(cats[0], ext) case Some(f) => f case None => folder;
      var rest := cats[1..];
      ClassifyFromPrecedence(rest, ext, next);
      assert forall i :: 1 <= i < |cats| ==> rest[i - 1] == cats[i];
    }
  }

  /** `organize`'s classification block with a non-empty configuration: the
      first matching flat category; failing that, the last matching nested
      `category/sub`; failing that, "Otros". */
  lemma ClassifyPrecedence(cats: seq<Category>, ext: string)
    ensures forall i :: 0 <= i < |cats| && FlatHit(cats[i], ext)
                        && (forall j :: 0 <= j < i ==> !FlatHit(cats[j], ext))
                        ==> Classify(cats, ext) == cats[i].name
    ensures (forall i :: 0 <= i < |cats| ==> !FlatHit(cats[i], ext)) ==>
              forall i :: 0 <= i < |cats| && NestedHit(cats[i], ext).Some?
                          && (forall j :: i < j < |cats| ==> NestedHit(cats[j], ext).None?)
                          ==> Classify(cats, ext) == NestedHit(cats[i], ext).value
    ensures (forall i :: 0 <= i < |cats| ==> !FlatHit(cats[i], ext) && NestedHit(cats[i], ext).None?)
              ==> Classify(cats, ext) == DefaultFolder
  {
    ClassifyFromPrecedence(cats, ext, DefaultFolder);
  }
}

=== FILE: collector.dfy ===
/** `FileCollector`: walks a source tree and moves every file whose
    extension belongs to a configured category into `dest/category`, leaving
    out files with excluded name prefixes or extensions. */
module Collector {
  import opened Wrappers
  import opened Text
  import opened Paths
  import opened FileSystem
  import opened Placement
  import opened Buckets

  /** The prefixes and extensions a file must avoid. */
  datatype Exclusion = Exclusion(starts: seq<string>, exts: seq<string>)

  const DefaultStarts: seq<string> := ["~", ".", "$"]
  const DefaultExts: seq<string> := ["tmp", "log", "sys", "dll", "ini", "lnk"]

  /** The exclusion lists the constructor settles on. Without a configuration
      (or with an empty one) both defaults apply; otherwise each key falls back
      to its own default when it is missing, independently of the other. */
  function ExclusionOf(config: Option<map<string, seq<string>>>): (r: Exclusion)
    ensures config.None? ==> r == Exclusion(DefaultStarts, DefaultExts)
    ensures config.Some? ==>
              && r.starts == (if "invalid_starts" in config.value then config.value["invalid_starts"] else DefaultStarts)
              && r.exts == (if "invalid_exts" in config.value then config.value["invalid_exts"] else DefaultExts)
  {
    match config
    case None => Exclusion(DefaultStarts, DefaultExts)
    case Some(m) =>
      if |m| == 0 then Exclusion(DefaultStarts, DefaultExts)
      else Exclusion(
        if "invalid_starts" in m then m["invalid_starts"] else DefaultStarts,
        if "invalid_exts" in m then m["invalid_exts"] else DefaultExts)
  }

  /** `_is_valid_file`: the name starts with no excluded prefix and its
      lower-cased extension, without the dot, is not excluded. */
  function IsValidFile(ex: Exclusion, filename: string): (r: bool)
    ensures r <==> (forall i :: 0 <= i < |ex.starts| ==> !StartsWith(filename, ex.starts[i]))
                   && DotlessExt(filename) !in ex.exts
  {
    !StartsWithAny(filename, ex.starts) && DotlessExt(filename) !in ex.exts
  }

  /** Under the defaults, names starting with `.`, `~` or `$` are left out. */
  lemma DefaultExclusions(stem: string)
    ensures !IsValidFile(ExclusionOf(None), "." + stem)
    ensures !IsValidFile(ExclusionOf(None), "~" + stem)
    ensures !IsValidFile(ExclusionOf(None), "$" + stem)
  {
    assert StartsWith("." + stem, DefaultStarts[1]);
    assert StartsWith("~" + stem, DefaultStarts[0]);
    assert StartsWith("$" + stem, DefaultStarts[2]);
  }

  /** One category of the collector configuration, in configuration order. */
  datatype Category = Category(name: string, exts: seq<string>)

  /** `_match_category`: the first category, in configuration order, whose
      list holds the lower-cased extension; `None` when there is none. */
  function MatchCategory(config: seq<Category>, ext: string): (r: Option<string>)
    ensures r.None? <==> forall i :: 0 <= i < |config| ==> LowerStr(ext) !in config[i].exts
    ensures r.Some? ==> exists i :: 0 <= i < |config| && config[i].name == r.value
                          && LowerStr(ext) in config[i].exts
                          && forall j :: 0 <= j < i ==> LowerStr(ext) !in config[j].exts
  {
    if |config| == 0 then None
    else if LowerStr(ext) in config[0].exts then Some(config[0].name)
    else
      var r := MatchCategory(config[1..], ext);
      assert forall i :: 1 <= i < |config| ==> config[1..][i - 1] == config[i];
      r
  }

  /** The collector's mutable fields: the filesystem, `moved_files` keyed by
      category, and the error list. */
  datatype State = State(fs: Fs, moved: seq<Bucket>, errors: seq<string>)

  /** The category a walked file is collected into, or `None` when it is
      skipped: excluded, uncategorised, or matched to a category whose name
      is the empty string (falsy). */
  function CategoryOf(ex: Exclusion, config: seq<Category>, file: string): (r: Option<string>)
    ensures r.Some? ==> IsValidFile(ex, file) && r.value != "" && MatchCategory(config, DotlessExt(file)) == r
    ensures !IsValidFile(ex, file) || MatchCategory(config, DotlessExt(file)).None? ==> r.None?
    ensures MatchCategory(config, DotlessExt(file)) == Some("") ==> r.None?
    ensures var m := MatchCategory(config, DotlessExt(file));
      IsValidFile(ex, file) && m.Some? && m.value != "" ==> r == m
  {
    if !IsValidFile(ex, file) then None
    else
      match MatchCategory(config, DotlessExt(file))
      case None => None
      case Some(c) => if c == "" then None else Some(c)
  }

  /** The move step of `_move_file`: the record at `src` goes to `final`
      inside `folder` and the new path is recorded under `category`, or the
      error line is. */
  function MoveInto(st: State, src: Key, folder: Path, final: string, category: string, name: string): (r: State)
    requires Key(folder, final) !in st.fs
    ensures MoveError(st.fs, src).None? ==> r.errors == st.errors
    ensures MoveError(st.fs, src).Some? ==> r.errors == st.errors + [ErrorLine(name, MoveError(st.fs, src).value)]
    ensures r.errors == st.errors ==>
              && src in st.fs && src !in r.fs
              && Key(folder, final) in r.fs && r.fs[Key(folder, final)] == st.fs[src]
              && r.moved == Append(st.moved, category, Join(folder, final))
    ensures r.errors != st.errors ==>
              && r.fs == st.fs && r.moved == st.moved
              && exists msg :: r.errors == st.errors + [ErrorLine(name, msg)]
  {
    match Move(st.fs, src, Key(folder, final))
    case Success(fs') => State(fs', Append(st.moved, category, Join(folder, final)), st.errors)
    case Failure(msg) => State(st.fs, st.moved, st.errors + [ErrorLine(name, msg)])
  }

  /** A move to a free name loses no entry, changes no entry but the source,
      keeps the per-category lists well formed and adds exactly one move or
      one error. */
  lemma MoveIntoInvariants(st: State, src: Key, folder: Path, final: string, category: string, name: string)
    requires WellFormed(st.moved)
    requires Key(folder, final) !in st.fs
    ensures var r := MoveInto(st, src, folder, final, category, name);
      && Total(r.moved) + |r.errors| == Total(st.moved) + |st.errors| + 1
      && |r.fs| == |st.fs|
      && (forall k :: k in st.fs && k != src ==> k in r.fs && r.fs[k] == st.fs[k])
      && WellFormed(r.moved)
      && |st.errors| <= |r.errors| && r.errors[..|st.errors|] == st.errors
  {
    var r := MoveInto(st, src, folder, final, category, name);
    assert r.errors[..|st.errors|] == st.errors;
    if Move(st.fs, src, Key(folder, final)).Success? {
      AppendTotal(st.moved, category, Join(folder, final));
      AppendWellFormed(st.moved, category, Join(folder, final));
    }
  }

  /** `_move_file` for the file `name` of the walked directory `root`: the
      destination is `dest/category` and the name the original one if free,
      else the least free `base_k.ext`. A file the filters skip leaves the
      state alone; a failed move records `"name: message"` and changes
      nothing else. */
  function CollectFile(ex: Exclusion, config: seq<Category>, dest: Path, st: State, root: Path, name: string): (r: State)
    ensures CategoryOf(ex, config, name).None? ==> r == st
    ensures CategoryOf(ex, config, name).Some? ==>
              var failure := MoveError(st.fs, Key(root, name));
              && (failure.None? ==> r.errors == st.errors)
              && (failure.Some? ==> r.errors == st.errors + [ErrorLine(name, failure.value)])
    ensures CategoryOf(ex, config, name).Some? && r.errors == st.errors ==>
              var category := CategoryOf(ex, config, name).value;
              var folder := Join(dest, category);
              var final := ChooseName(Names(st.fs, folder), name);
              && final !in Names(st.fs, folder)
              && Key(root, name) in st.fs && Key(root, name) !in r.fs
              && Key(folder, final) in r.fs && r.fs[Key(folder, final)] == st.fs[Key(root, name)]
              && r.moved == Append(st.moved, category, Join(folder, final))
    ensures r.errors != st.errors ==>
              && r.fs == st.fs && r.moved == st.moved
              && exists msg :: r.errors == st.errors + [ErrorLine(name, msg)]
  {
    match CategoryOf(ex, config, name)
    case None => st
    case Some(category) =>
      var folder := Join(dest, category);
      MoveInto(st, Key(root, name), folder, ChooseName(Names(st.fs, folder), name), category, name)
  }

  /** Handling one file loses no entry, changes no entry but that file, keeps
      the per-category lists well formed, and adds one move or one error
      exactly when the file passes the filters. */
  lemma CollectFileInvariants(ex: Exclusion, config: seq<Category>, dest: Path, st: State, root: Path, name: string)
    requires WellFormed(st.moved)
    ensures var r := CollectFile(ex, config, dest, st, root, name);
      && Total(r.moved) + |r.errors| == Total(st.moved) + |st.errors| + (if CategoryOf(ex, config, name).Some? then 1 else 0)
      && |r.fs| == |st.fs|
      && (forall k :: k in st.fs && k != Key(root, name) ==> k in r.fs && r.fs[k] == st.fs[k])
      && WellFormed(r.moved)
      && |st.errors| <= |r.errors| && r.errors[..|st.errors|] == st.errors
  {
    if CategoryOf(ex, config, name).Some? {
      var category := CategoryOf(ex, config, name).value;
      var folder := Join(dest, category);
      MoveIntoInvariants(st, Key(root, name), folder, ChooseName(Names(st.fs, folder), name), category, name);
    }
  }

  /** The files of one walked directory. */
  function CollectFiles(ex: Exclusion, config: seq<Category>, dest: Path, st: State, root: Path, files: seq<string>): State
    decreases |files|
  {
    if |files| == 0 then st
    else CollectFiles(ex, config, dest, CollectFile(ex, config, dest, st, root, files[0]), root, files[1..])
  }

  /** `collect`: every directory of the walk of the source tree, in order. */
  function CollectWalk(ex: Exclusion, config: seq<Category>, dest: Path, st: State, walk: seq<WalkStep>): State
    decreases |walk|
  {
    if |walk| == 0 then st
    else CollectWalk(ex, config, dest, CollectFiles(ex, config, dest, st, walk[0].dir, walk[0].files), walk[1..])
  }

  /** Facts a collection run keeps: no entry is lost, the per-category lists
      stay well formed, and each walked file adds at most one move or error. */
  ghost predicate Kept(st: State, r: State, budget: nat) {
    && |r.fs| == |st.fs|
    && WellFormed(r.moved)
    && Total(r.moved) + |r.errors| <= Total(st.moved) + |st.errors| + budget
    && |st.errors| <= |r.errors| && r.errors[..|st.errors|] == st.errors
  }

  lemma KeptTrans(st: State, s: State, r: State, a: nat, b: nat)
    requires Kept(st, s, a) && Kept(s, r, b)
    ensures Kept(st, r, a + b)
  {
    assert r.errors[..|st.errors|] == r.errors[..|s.errors|][..|st.errors|];
  }

  lemma {:induction false} CollectFilesKept(ex: Exclusion, config: seq<Category>, dest: Path, st: State, root: Path, files: seq<string>)
    requires WellFormed(st.moved)
    ensures Kept(st, CollectFiles(ex, config, dest, st, root, files), |files|)
    decreases |files|
  {
    if |files| > 0 {
      var s := CollectFile(ex, config, dest, st, root, files[0]);
      CollectFileInvariants(ex, config, dest, st, root, files[0]);
      CollectFilesKept(ex, config, dest, s, root, files[1..]);
      KeptTrans(st, s, CollectFiles(ex, config, dest, s, root, files[1..]), 1, |files| - 1);
    }
  }

  lemma {:induction false} CollectWalkKept(ex: Exclusion, config: seq<Category>, dest: Path, st: State, walk: seq<WalkStep>)
    requires WellFormed(st.moved)
    ensures Kept(st, CollectWalk(ex, config, dest, st, walk), WalkSize(walk))
    decreases |walk|
  {
    if |walk| > 0 {
      var s := CollectFiles(ex, config, dest, st, walk[0].dir, walk[0].files);
      CollectFilesKept(ex, config, dest, st, walk[0].dir, walk[0].files);
      CollectWalkKept(ex, config, dest, s, walk[1..]);
      KeptTrans(st, s, CollectWalk(ex, config, dest, s, walk[1..]), |walk[0].files|, WalkSize(walk[1..]));
    }
  }

  /** `collect` from the empty record: no entry is lost, the per-category
      lists are well formed, and moves plus errors never exceed the number of
      walked files. */
  function Collect(exclusion: Option<map<string, seq<string>>>, config: seq<Category>, dest: Path, fs: Fs, walk: seq<WalkStep>): (r: State)
    ensures |r.fs| == |fs|
    ensures WellFormed(r.moved)
    ensures Total(r.moved) + |r.errors| <= WalkSize(walk)
  {
    CollectWalkKept(ExclusionOf(exclusion), config, dest, State(fs, [], []), walk);
    CollectWalk(ExclusionOf(exclusion), config, dest, State(fs, [], []), walk)
  }

  /** The summary `_get_results` returns (timestamps and duration left out). */
  datatype Results = Results(totalFilesMoved: nat, categories: seq<string>, filesByCategory: seq<Bucket>, errors: seq<string>)

  /** `_get_results`: the moved total is the number of recorded paths, and
      when the dictionary is well formed each category appears once, with its
      own non-empty list of moved paths. */
  function GetResults(st: State): (r: Results)
    ensures r.filesByCategory == st.moved && r.totalFilesMoved == Total(st.moved)
    ensures r.errors == st.errors
    ensures |r.categories| == |st.moved|
    ensures WellFormed(st.moved) ==>
              && (forall i, j :: 0 <= i < j < |r.categories| ==> r.categories[i] != r.categories[j])
              && (forall i :: 0 <= i < |r.categories| ==>
                    Lookup(st.moved, r.categories[i]) == st.moved[i].items && |st.moved[i].items| > 0)
  {
    var r := Results(Total(st.moved), Keys(st.moved), st.moved, st.errors);
    if WellFormed(st.moved) then FirstLookup(st.moved); r else r
  }

  /** What a run reports: each category is listed once and only if it
      received a file, no entry is lost, and moves plus errors never exceed
      the number of walked files. */
  lemma CollectResults(exclusion: Option<map<string, seq<string>>>, config: seq<Category>, dest: Path, fs: Fs, walk: seq<WalkStep>)
    ensures var st := Collect(exclusion, config, dest, fs, walk);
      var r := GetResults(st);
      && |st.fs| == |fs|
      && r.totalFilesMoved + |r.errors| <= WalkSize(walk)
      && (forall i, j :: 0 <= i < j < |r.categories| ==> r.categories[i] != r.categories[j])
      && (forall i :: 0 <= i < |r.filesByCategory| ==> |r.filesByCategory[i].items| > 0)
  {
  }
}

=== FILE: dates.dfy ===
/** Creation timestamps, the date-bucket labels `strftime` produces for each
    date mode, and the inclusive date-range filter. */
module Dates {
  import opened Text
  import opened Wrappers

  /** A calendar day, as `strptime("%Y-%m-%d")` reads one. */
  datatype Date = Date(year: nat, month: nat, day: nat)

  /** A local timestamp as `datetime.fromtimestamp` gives it. */
  datatype DateTime = DateTime(year: nat, month: nat, day: nat,
                               hour: nat, minute: nat, second: nat, micro: nat)

  predicate IsLeap(y: nat) {
    (y % 4 == 0 && y % 100 != 0) || y % 400 == 0
  }

  function DaysIn(y: nat, m: nat): nat {
    if m == 2 then (if IsLeap(y) then 29 else 28)
    else if m == 4 || m == 6 || m == 9 || m == 11 then 30
    else 31
  }

  /** The timestamps the model covers: a real calendar instant with a
      four-digit year, so `%Y` renders four characters. */
  predicate Valid(dt: DateTime) {
    1000 <= dt.year <= 9999 && 1 <= dt.month <= 12 && 1 <= dt.day <= DaysIn(dt.year, dt.month)
    && dt.hour < 24 && dt.minute < 60 && dt.second < 60 && dt.micro < 1000000
  }

  function DateOf(dt: DateTime): Date {
    Date(dt.year, dt.month, dt.day)
  }

  /** The `datetime` that `strptime` yields for a date: its midnight. */
  function Midnight(d: Date): DateTime {
    DateTime(d.year, d.month, d.day, 0, 0, 0, 0)
  }

  predicate AtMidnight(dt: DateTime) {
    dt.hour == 0 && dt.minute == 0 && dt.second == 0 && dt.micro == 0
  }

  /** Strict calendar order on days. */
  predicate DateLt(a: Date, b: Date) {
    a.year < b.year
    || (a.year == b.year && (a.month < b.month || (a.month == b.month && a.day < b.day)))
  }

  predicate DateLe(a: Date, b: Date) {
    DateLt(a, b) || a == b
  }

  /** Order on the time of day: hour, then minute, second, microsecond. */
  predicate TimeLe(a: DateTime, b: DateTime) {
    a.hour < b.hour
    || (a.hour == b.hour && (a.minute < b.minute
    || (a.minute == b.minute && (a.second < b.second
    || (a.second == b.second && a.micro <= b.micro)))))
  }

  /** `datetime` comparison `a <= b`: lexicographic on all seven fields. */
  predicate DateTimeLe(a: DateTime, b: DateTime) {
    DateLt(DateOf(a), DateOf(b)) || (DateOf(a) == DateOf(b) && TimeLe(a, b))
  }

  /** `dt.strftime("%Y-%m-%d")`. */
  function DayLabel(dt: DateTime): string {
    Pad(dt.year, 4) + "-" + Pad(dt.month, 2) + "-" + Pad(dt.day, 2)
  }

  /** The label every date mode falls back to. */
  const UnknownDate := "UnknownDate"

  /** `_format_date`: the bucket label for a timestamp under a date mode.
      Only the four named modes format; every other mode, `range` included,
      yields the literal fallback. */
  function FormatDate(mode: string, dt: DateTime): (r: string)
    ensures mode != "full" && mode != "day" && mode != "month" && mode != "year" ==> r == UnknownDate
    ensures Valid(dt) && mode == "full" ==> |r| == 16 && r[4] == '-' && r[7] == '-' && r[10] == '_' && r[13] == '-'
    ensures Valid(dt) && mode == "day" ==> |r| == 10 && r[4] == '-' && r[7] == '-'
    ensures Valid(dt) && mode == "month" ==> |r| == 7 && r[4] == '-'
    ensures Valid(dt) && mode == "year" ==> |r| == 4 && AllDigits(r)
  {
    FieldWidths(dt);
    if mode == "full" then DayLabel(dt) + "_" + Pad(dt.hour, 2) + "-" + Pad(dt.minute, 2)
    else if mode == "day" then DayLabel(dt)
    else if mode == "month" then Pad(dt.year, 4) + "-" + Pad(dt.month, 2)
    else if mode == "year" then Pad(dt.year, 4)
    else UnknownDate
  }

  /** The padded fields of a valid timestamp have their nominal widths. */
  lemma FieldWidths(dt: DateTime)
    ensures Valid(dt) ==>
      |Pad(dt.year, 4)| == 4 && |Pad(dt.month, 2)| == 2 && |Pad(dt.day, 2)| == 2
      && |Pad(dt.hour, 2)| == 2 && |Pad(dt.minute, 2)| == 2
  {
    if Valid(dt) {
      PadWidth(dt.year, 4);
      PadWidth(dt.month, 2);
      PadWidth(dt.day, 2);
      PadWidth(dt.hour, 2);
      PadWidth(dt.minute, 2);
    }
  }

  /** A field below `10^width` is padded to exactly `width` digits. */
  lemma PadWidth(n: nat, width: nat)
    requires 1 <= width
    requires n < Pow10(width)
    ensures |Pad(n, width)| == width
  {
    DecimalBound(n, width);
  }

  /** The full label reads back: it holds the timestamp's year, month, day,
      hour and minute as decimal numbers at fixed offsets. The coarser labels
      are its prefixes (`LabelsNest`), so they hold their leading fields. */
  lemma {:induction false} LabelFields(dt: DateTime)
    requires Valid(dt)
    ensures var r := FormatDate("full", dt);
      DigitsValue(r[0..4]) == dt.year && DigitsValue(r[5..7]) == dt.month
      && DigitsValue(r[8..10]) == dt.day && DigitsValue(r[11..13]) == dt.hour
      && DigitsValue(r[14..16]) == dt.minute
  {
    PadWidth(dt.year, 4);
    PadWidth(dt.month, 2);
    PadWidth(dt.day, 2);
    PadWidth(dt.hour, 2);
    PadWidth(dt.minute, 2);
    var r := FormatDate("full", dt);
    assert r[0..4] == Pad(dt.year, 4);
    assert r[5..7] == Pad(dt.month, 2);
    assert r[8..10] == Pad(dt.day, 2);
    assert r[11..13] == Pad(dt.hour, 2);
    assert r[14..16] == Pad(dt.minute, 2);
    PadRoundTrip(dt.year, 4);
    PadRoundTrip(dt.month, 2);
    PadRoundTrip(dt.day, 2);
    PadRoundTrip(dt.hour, 2);
    PadRoundTrip(dt.minute, 2);
  }

  /** Coarser buckets are prefixes of finer ones: year, month, day, full. */
  lemma LabelsNest(dt: DateTime)
    ensures StartsWith(FormatDate("month", dt), FormatDate("year", dt))
    ensures StartsWith(FormatDate("day", dt), FormatDate("month", dt))
    ensures StartsWith(FormatDate("full", dt), FormatDate("day", dt))
  {
    var y := Pad(dt.year, 4);
    var m := y + "-" + Pad(dt.month, 2);
    var d := m + "-" + Pad(dt.day, 2);
    assert FormatDate("month", dt)[..|y|] == y;
    assert FormatDate("day", dt) == d;
    assert d[..|m|] == m;
    assert FormatDate("full", dt)[..|d|] == d;
  }

  /** `_matches_range`: false without a range; otherwise `start <= dt <= end`
      with both bounds read as midnights. In calendar terms the creation day
      lies between the two days inclusive, and on the end day only the exact
      midnight passes. */
  function MatchesRange(range: Option<(Date, Date)>, dt: DateTime): (r: bool)
    ensures range.None? ==> !r
    ensures range.Some? ==>
      (r <==> DateLe(range.value.0, DateOf(dt)) && DateLe(DateOf(dt), range.value.1)
              && (DateOf(dt) == range.value.1 ==> AtMidnight(dt)))
  {
    match range
    case None => false
    case Some((start, end)) => DateTimeLe(Midnight(start), dt) && DateTimeLe(dt, Midnight(end))
  }
}

=== FILE: duplicates.dfy ===
/** `DuplicateHandler`: walks a folder, keeps the first file seen for each
    content digest and moves every later file with the same digest into the
    `duplicates` sub-folder. */
module Duplicates {
  import opened Wrappers
  import opened Text
  import opened Paths
  import opened FileSystem
  import opened Placement

  /** The quarantine folder of a scanned folder. */
  function QuarantineOf(folder: Path): Path {
    Join(folder, "duplicates")
  }

  /** The handler's mutable fields: the filesystem, `hashes` (digest to the
      first path seen), `duplicates_moved` and `files_processed`. */
  datatype State<D> = State(fs: Fs, hashes: map<D, Path>, duplicates: seq<Path>, processed: nat)

  /** How a scan ends: it runs to completion, or a move raises and the
      exception leaves the state as it was at that point. */
  datatype Scan<D> = Completed(state: State<D>) | Aborted(state: State<D>, message: string)

  /** The counters agree: every processed file is either the kept original of
      its digest or a moved duplicate. */
  predicate Balanced<D>(st: State<D>) {
    st.processed == |st.hashes| + |st.duplicates|
  }

  /** `_compute_file_hash`: the digest of the content, or `None` when the file
      cannot be opened (or is no longer there). `digest` stands for SHA-256;
      its hex string is never empty, so `not file_hash` means `None`. */
  function ComputeHash<D>(digest: Bytes -> D, fs: Fs, k: Key): (r: Option<D>)
    ensures r.Some? <==> IsFile(fs, k) && fs[k].info.openable
    ensures r.Some? ==> r.value == digest(fs[k].info.content)
  {
    if IsFile(fs, k) && fs[k].info.openable then Some(digest(fs[k].info.content)) else None
  }

  /** `_move_to_duplicates`: the file moves into the quarantine folder under
      its basename if free, else under the least free `base_k.ext`. */
  function MoveToDuplicates(quarantine: Path, fs: Fs, dir: Path, name: string): (r: Result<Fs>)
    ensures r.Failure? <==> MoveError(fs, Key(dir, name)).Some?
    ensures r.Failure? ==> r.message == MoveError(fs, Key(dir, name)).value
    ensures r.Success? ==>
              var final := ChooseName(Names(fs, quarantine), Basename(Join(dir, name)));
              && final !in Names(fs, quarantine)
              && Key(dir, name) in fs && Key(dir, name) !in r.value
              && Key(quarantine, final) in r.value
              && r.value[Key(quarantine, final)] == fs[Key(dir, name)]
              && |r.value| == |fs|
              && (forall k :: k in fs && k != Key(dir, name) ==> k in r.value && r.value[k] == fs[k])
  {
    var final := ChooseName(Names(fs, quarantine), Basename(Join(dir, name)));
    assert Key(quarantine, final) !in fs;
    Move(fs, Key(dir, name), Key(quarantine, final))
  }

  /** One file of the walk. A file that cannot be hashed is skipped and not
      counted. A new digest records this path as the original. A known digest
      leaves the recorded original alone and moves this file; it joins
      `duplicates` only once the move has returned, and a failing move aborts
      the scan after the file was counted. */
  function ScanFile<D(==)>(digest: Bytes -> D, quarantine: Path, st: State<D>, dir: Path, name: string): (r: Scan<D>)
    ensures ComputeHash(digest, st.fs, Key(dir, name)).None? ==> r == Completed(st)
    ensures ComputeHash(digest, st.fs, Key(dir, name)).Some? ==>
              var d := ComputeHash(digest, st.fs, Key(dir, name)).value;
              && r.state.processed == st.processed + 1
              && (d !in st.hashes ==> r == Completed(st.(hashes := st.hashes[d := Join(dir, name)], processed := st.processed + 1)))
              && (d in st.hashes ==> r.state.hashes == st.hashes)
              && (d in st.hashes && r.Completed? ==>
                    var final := ChooseName(Names(st.fs, quarantine), Basename(Join(dir, name)));
                    && r.state.duplicates == st.duplicates + [Join(dir, name)]
                    && Key(dir, name) !in r.state.fs
                    && Key(quarantine, final) in r.state.fs
                    && r.state.fs[Key(quarantine, final)] == st.fs[Key(dir, name)])
              && (r.Aborted? ==> d in st.hashes && r.state == st.(processed := st.processed + 1))
              && (r.Aborted? <==> d in st.hashes && st.fs[Key(dir, name)].info.moveError.Some?)
              && (r.Aborted? ==> r.message == st.fs[Key(dir, name)].info.moveError.value)
  {
    match ComputeHash(digest, st.fs, Key(dir, name))
    case None => Completed(st)
    case Some(d) =>
      var path := Join(dir, name);
      var counted := st.(processed := st.processed + 1);
      if d in st.hashes then
        match MoveToDuplicates(quarantine, st.fs, dir, name)
        case Success(fs') => Completed(counted.(fs := fs', duplicates := st.duplicates + [path]))
        case Failure(msg) => Aborted(counted, msg)
      else
        Completed(counted.(hashes := st.hashes[d := path]))
  }

  /** One file keeps the counters balanced exactly when it does not abort,
      loses no entry and changes no entry but its own. */
  lemma ScanFileInvariants<D>(digest: Bytes -> D, quarantine: Path, st: State<D>, dir: Path, name: string)
    ensures var r := ScanFile(digest, quarantine, st, dir, name);
      && (Balanced(st) ==> (r.Completed? <==> Balanced(r.state)))
      && |r.state.fs| == |st.fs|
      && (forall k :: k in st.fs && k != Key(dir, name) ==> k in r.state.fs && r.state.fs[k] == st.fs[k])
      && (r.state.hashes.Keys == st.hashes.Keys + (if r.state.processed == st.processed then {}
                                                   else {ComputeHash(digest, st.fs, Key(dir, name)).value}))
      && (forall e :: e in st.hashes ==> r.state.hashes[e] == st.hashes[e])
  {
    var h := ComputeHash(digest, st.fs, Key(dir, name));
    if h.Some? {
      if h.value !in st.hashes {
        assert |st.hashes[h.value := Join(dir, name)]| == |st.hashes| + 1;
      } else {
        var mv := MoveToDuplicates(quarantine, st.fs, dir, name);
        assert mv.Success? ==> |mv.value| == |st.fs|;
      }
    }
  }

  /** One file makes progress in the sense of `Progress`. */
  lemma ScanFileProgress<D>(digest: Bytes -> D, quarantine: Path, st: State<D>, dir: Path, name: string)
    requires Balanced(st)
    ensures Progress(st, ScanFile(digest, quarantine, st, dir, name))
  {
    ScanFileInvariants(digest, quarantine, st, dir, name);
    var r := ScanFile(digest, quarantine, st, dir, name);
    assert r.state.duplicates[..|st.duplicates|] == st.duplicates;
  }

  /** Progress composes: a completed stretch followed by another. */
  lemma ProgressTrans<D>(st: State<D>, s: State<D>, r: Scan<D>)
    requires Progress(st, Completed(s)) && Progress(s, r)
    ensures Progress(st, r)
  {
    assert r.state.duplicates[..|st.duplicates|] == r.state.duplicates[..|s.duplicates|][..|st.duplicates|];
  }

  /** The files of one walked directory, in order, stopping at an abort. */
  function ScanFiles<D(==)>(digest: Bytes -> D, quarantine: Path, st: State<D>, dir: Path, files: seq<string>): Scan<D>
    decreases |files|
  {
    if |files| == 0 then Completed(st)
    else
      match ScanFile(digest, quarantine, st, dir, files[0])
      case Aborted(s, msg) => Aborted(s, msg)
      case Completed(s) => ScanFiles(digest, quarantine, s, dir, files[1..])
  }

  /** A walked directory is skipped whenever the quarantine path occurs in
      its path (`self.duplicates_folder in dirpath`). */
  predicate SkipDir(quarantine: Path, dir: Path) {
    IsSubstring(quarantine, dir)
  }

  /** The walk, one directory after another, stopping at an abort. */
  function ScanWalk<D(==)>(digest: Bytes -> D, quarantine: Path, st: State<D>, walk: seq<WalkStep>): Scan<D>
    decreases |walk|
  {
    if |walk| == 0 then Completed(st)
    else if SkipDir(quarantine, walk[0].dir) then ScanWalk(digest, quarantine, st, walk[1..])
    else
      match ScanFiles(digest, quarantine, st, walk[0].dir, walk[0].files)
      case Aborted(s, msg) => Aborted(s, msg)
      case Completed(s) => ScanWalk(digest, quarantine, s, walk[1..])
  }

  /** `scan_and_move_duplicates` on `folder`, whose `os.walk` is `walk`,
      starting from the empty record: a completed scan counts every hashed
      file as an original or a duplicate, an aborted one leaves the file whose
      move failed counted but neither, and no entry is lost. */
  function ScanAndMoveDuplicates<D(==)>(digest: Bytes -> D, folder: Path, fs: Fs, walk: seq<WalkStep>): (r: Scan<D>)
    ensures r.Completed? ==> r.state.processed == |r.state.hashes| + |r.state.duplicates|
    ensures r.Aborted? ==> r.state.processed == |r.state.hashes| + |r.state.duplicates| + 1
    ensures |r.state.fs| == |fs|
  {
    ScanWalkProgress(digest, QuarantineOf(folder), State(fs, map[], [], 0), walk);
    ScanWalk(digest, QuarantineOf(folder), State(fs, map[], [], 0), walk)
  }

  /** Facts a run keeps from one step to the next: the counters stay
      balanced until an abort (after which exactly one counted file is
      unaccounted for), a recorded original is never replaced, the
      duplicates list only grows at its end, and no entry is lost. */
  ghost predicate Progress<D>(st: State<D>, r: Scan<D>) {
    && (r.Completed? <==> Balanced(r.state))
    && (r.Aborted? ==> r.state.processed == |r.state.hashes| + |r.state.duplicates| + 1)
    && st.hashes.Keys <= r.state.hashes.Keys
    && (forall e :: e in st.hashes ==> r.state.hashes[e] == st.hashes[e])
    && |st.duplicates| <= |r.state.duplicates| && r.state.duplicates[..|st.duplicates|] == st.duplicates
    && |r.state.fs| == |st.fs|
  }

  lemma {:induction false} ScanFilesProgress<D>(digest: Bytes -> D, quarantine: Path, st: State<D>, dir: Path, files: seq<string>)
    requires Balanced(st)
    ensures Progress(st, ScanFiles(digest, quarantine, st, dir, files))
    decreases |files|
  {
    if |files| > 0 {
      var step := ScanFile(digest, quarantine, st, dir, files[0]);
      ScanFileProgress(digest, quarantine, st, dir, files[0]);
      if step.Completed? {
        var s := step.state;
        ScanFilesProgress(digest, quarantine, s, dir, files[1..]);
        ProgressTrans(st, s, ScanFiles(digest, quarantine, s, dir, files[1..]));
      }
    }
  }

  lemma {:induction false} ScanWalkProgress<D>(digest: Bytes -> D, quarantine: Path, st: State<D>, walk: seq<WalkStep>)
    requires Balanced(st)
    ensures Progress(st, ScanWalk(digest, quarantine, st, walk))
    decreases |walk|
  {
    if |walk| > 0 {
      if SkipDir(quarantine, walk[0].dir) {
        ScanWalkProgress(digest, quarantine, st, walk[1..]);
      } else {
        var step := ScanFiles(digest, quarantine, st, walk[0].dir, walk[0].files);
        ScanFilesProgress(digest, quarantine, st, walk[0].dir, walk[0].files);
        if step.Completed? {
          var s := step.state;
          ScanWalkProgress(digest, quarantine, s, walk[1..]);
          ProgressTrans(st, s, ScanWalk(digest, quarantine, s, walk[1..]));
        }
      }
    }
  }

  /** After a completed scan the reported `total_files` is
      `unique_files + duplicate_files`; after an aborted one the file whose
      move failed is counted but is neither. */
  lemma ScanCounts<D>(digest: Bytes -> D, folder: Path, fs: Fs, walk: seq<WalkStep>)
    ensures var r := ScanAndMoveDuplicates(digest, folder, fs, walk);
      var res := GetResults(r.state);
      && (r.Completed? ==> res.totalFiles == res.uniqueFiles + res.duplicateFiles)
      && (r.Aborted? ==> res.totalFiles == res.uniqueFiles + res.duplicateFiles + 1)
  {
  }

  /** The quarantine folder and everything below it are skipped, and so is
      any directory whose path merely contains the quarantine path, such as a
      sibling `duplicates_old`. */
  lemma SkipsQuarantine(quarantine: Path, rest: string)
    ensures SkipDir(quarantine, quarantine)
    ensures SkipDir(quarantine, quarantine + rest)
  {
    assert OccursAt(quarantine, quarantine + rest, 0);
    assert (quarantine + rest)[0..|quarantine|] == quarantine;
    assert OccursAt(quarantine, quarantine, 0);
  }

  /** The summary `_get_results` returns (the duration is left out). */
  datatype Results = Results(totalFiles: nat, uniqueFiles: nat, duplicateFiles: nat, duplicatesList: seq<Path>)

  /** `_get_results`: counts read off the state and a copy of the list. */
  function GetResults<D>(st: State<D>): (r: Results)
    ensures r.totalFiles == st.processed && r.uniqueFiles == |st.hashes|
    ensures r.duplicatesList == st.duplicates && r.duplicateFiles == |r.duplicatesList|
    ensures Balanced(st) <==> r.totalFiles == r.uniqueFiles + r.duplicateFiles
  {
    Results(st.processed, |st.hashes|, |st.duplicates|, st.duplicates)
  }
}

=== FILE: filesystem.dfy ===
/** The abstract filesystem the engines act on: a map from (directory, name)
    to an entry, the one mutating primitive (`shutil.move`), and directory
    walks given as sequences in the order `os.walk` would produce them. */
module FileSystem {
  import opened Wrappers
  import opened Text
  import opened Paths
  import opened Dates

  type Bytes = seq<bv8>

  /** What the engines read from a regular file. The flags stand for the
      operating system's answers: whether `open(path, "rb")` succeeds, whether
      `os.path.getsize` succeeds, and the message `shutil.move` raises, if any. */
  datatype FileInfo = FileInfo(
    content: Bytes,
    created: DateTime,
    openable: bool,
    statable: bool,
    moveError: Option<string>)

  datatype Entry = File(info: FileInfo) | Folder

  /** An entry's location: the directory path and the name inside it. */
  datatype Key = Key(dir: Path, name: string)

  type Fs = map<Key, Entry>

  /** One tuple `(dirpath, dirnames, filenames)` of `os.walk`. */
  datatype WalkStep = WalkStep(dir: Path, subdirs: seq<string>, files: seq<string>)

  /** The number of file names a walk lists. */
  function WalkSize(walk: seq<WalkStep>): nat {
    if |walk| == 0 then 0 else |walk[0].files| + WalkSize(walk[1..])
  }

  /** The message of the `FileNotFoundError` that `shutil.move` raises for a
      source path that is not there: `open(src)` in its copy fallback names
      the path, quoted. */
  function NotFound(path: Path): (r: string)
    ensures StartsWith(r, "[Errno 2] No such file or directory: '")
    ensures |path| + 2 <= |r| && r[|r| - |path| - 1..] == path + "'"
  {
    "[Errno 2] No such file or directory: '" + path + "'"
  }

  /** The names present in `dir`: those for which `os.path.exists` holds. */
  function Names(fs: Fs, dir: Path): (r: set<string>)
    ensures forall n :: n in r <==> Key(dir, n) in fs
  {
    set k | k in fs && k.dir == dir :: k.name
  }

  /** `os.path.isfile`. */
  predicate IsFile(fs: Fs, k: Key) {
    k in fs && fs[k].File?
  }

  /** The message `shutil.move` raises when asked to move `src`, or `None`
      when the move goes through: a missing source, or a file whose move the
      operating system refuses. */
  function MoveError(fs: Fs, src: Key): (r: Option<string>)
    ensures src !in fs ==> r == Some(NotFound(Join(src.dir, src.name)))
    ensures src in fs && fs[src].Folder? ==> r.None?
    ensures src in fs && fs[src].File? ==> r == fs[src].info.moveError
  {
    if src !in fs then Some(NotFound(Join(src.dir, src.name)))
    else if fs[src].File? then fs[src].info.moveError
    else None
  }

  /** `shutil.move(src, dst)`: fails when the source is missing or the
      operating system refuses; otherwise the entry leaves `src` and appears,
      unchanged, at `dst`. Moving to a free `dst` loses nothing: the number of
      entries stays the same. */
  function Move(fs: Fs, src: Key, dst: Key): (r: Result<Fs>)
    ensures src !in fs ==> r == Failure(NotFound(Join(src.dir, src.name)))
    ensures src in fs && fs[src].File? && fs[src].info.moveError.Some? ==>
              r == Failure(fs[src].info.moveError.value)
    ensures src in fs && (fs[src].Folder? || fs[src].info.moveError.None?) ==> r.Success?
    ensures r.Success? ==>
              && r.value.Keys == fs.Keys - {src} + {dst}
              && r.value[dst] == fs[src]
              && (forall k :: k in fs && k != src && k != dst ==> r.value[k] == fs[k])
    ensures r.Success? && dst !in fs ==> |r.value| == |fs|
    ensures r.Failure? <==> MoveError(fs, src).Some?
    ensures r.Failure? ==> r.message == MoveError(fs, src).value
  {
    if src !in fs then Failure(NotFound(Join(src.dir, src.name)))
    else if fs[src].File? && fs[src].info.moveError.Some? then Failure(fs[src].info.moveError.value)
    else
      var moved := (fs - {src})[dst := fs[src]];
      assert dst !in fs ==> moved.Keys == (fs.Keys - {src}) + {dst} && dst !in fs.Keys - {src};
      Success(moved)
  }

  /** Every entry outside directory `dir` is still there, unchanged. */
  ghost predicate UntouchedOutside(fs: Fs, fs': Fs, dir: Path) {
    forall k :: k in fs && k.dir != dir ==> k in fs' && fs'[k] == fs[k]
  }

  /** A caught per-file exception as the engines record it: `f"{name}: {e}"`. */
  function ErrorLine(name: string, message: string): string {
    name + ": " + message
  }
}

=== FILE: organizer.dfy ===
/** `FileOrganizer`: files the direct children of a base folder into
    sub-folders chosen by extension rules or by creation date, renaming each
    on the way. */
module Organizer {
  import opened Wrappers
  import opened Paths
  import opened Dates
  import opened FileSystem
  import opened Placement
  import opened Renaming
  import opened Classification
  import opened Buckets

  /** The constructor's arguments. `dateMode` "" stands for `None` (both are
      falsy); `extConfig` [] stands for `None` or `{}`. */
  datatype Config = Config(
    base: Path,
    extConfig: seq<Category>,
    rename: RenameConfig,
    dateMode: string,
    dateRange: Option<(Date, Date)>)

  /** The organiser's mutable fields after some entries have been handled. */
  datatype State = State(fs: Fs, moved: seq<Bucket>, renamed: nat, errors: seq<string>)

  /** The folder, relative to the base, that a file with extension `ext`
      created at `dt` goes to, or `None` when range mode skips it. A non-empty
      extension configuration takes priority over the date mode; a file that
      passes the range filter is labelled by `_format_date` under the mode
      "range", which is the fallback label. */
  function TargetFolder(cfg: Config, ext: string, dt: DateTime): (r: Option<string>)
    ensures |cfg.extConfig| > 0 ==> r == Some(Classify(cfg.extConfig, ext))
    ensures |cfg.extConfig| == 0 && cfg.dateMode == "" ==> r == Some(DefaultFolder)
    ensures |cfg.extConfig| == 0 && cfg.dateMode == "range" ==>
              (r.None? <==> !MatchesRange(cfg.dateRange, dt)) && (r.Some? ==> r.value == UnknownDate)
    ensures |cfg.extConfig| == 0 && cfg.dateMode != "" && cfg.dateMode != "range" ==>
              r == Some(FormatDate(cfg.dateMode, dt))
  {
    if |cfg.extConfig| > 0 then Some(Classify(cfg.extConfig, ext))
    else if cfg.dateMode != "" then
      if cfg.dateMode == "range" && !MatchesRange(cfg.dateRange, dt) then None
      else Some(FormatDate(cfg.dateMode, dt))
    else Some(DefaultFolder)
  }

  /** The entry `name` of the base folder is handled: it is a regular file and
      the range filter does not skip it. */
  predicate Eligible(cfg: Config, fs: Fs, name: string) {
    var src := Key(cfg.base, name);
    IsFile(fs, src) && TargetFolder(cfg, DotlessExt(name), fs[src].info.created).Some?
  }

  /** The destination folder of an eligible entry. */
  function DestFolder(cfg: Config, fs: Fs, name: string): Path
    requires Eligible(cfg, fs, name)
  {
    var src := Key(cfg.base, name);
    Join(cfg.base, TargetFolder(cfg, DotlessExt(name), fs[src].info.created).value)
  }

  /** The rename of an eligible entry. */
  function NewName(cfg: Config, fs: Fs, name: string): Renamed
    requires IsFile(fs, Key(cfg.base, name))
  {
    RenameFile(cfg.rename, name, fs[Key(cfg.base, name)].info.created)
  }

  /** The collision-free name the entry gets in its destination folder. */
  function FinalName(cfg: Config, fs: Fs, name: string): string
    requires Eligible(cfg, fs, name)
  {
    ChooseName(Names(fs, DestFolder(cfg, fs, name)), NewName(cfg, fs, name).name)
  }

  /** One iteration of `organize`'s loop, for the listed entry `name`.
      Entries that are not regular files, and files the range filter rejects,
      leave the state alone. A handled file counts as renamed when its stem
      changed (even if its move then fails); a successful move puts the same
      record under a free name of the destination folder and appends that path
      to the folder's list; a failed move records `"name: message"` and
      changes nothing else. */
  function ProcessEntry(cfg: Config, st: State, name: string): (r: State)
    ensures !Eligible(cfg, st.fs, name) ==> r == st
    ensures Eligible(cfg, st.fs, name) ==>
              r.renamed == st.renamed + (if NewName(cfg, st.fs, name).changed then 1 else 0)
    ensures Eligible(cfg, st.fs, name) ==>
              var failure := st.fs[Key(cfg.base, name)].info.moveError;
              && (failure.None? ==> r.errors == st.errors)
              && (failure.Some? ==> r.errors == st.errors + [ErrorLine(name, failure.value)])
    ensures Eligible(cfg, st.fs, name) && r.errors == st.errors ==>
              var dest := DestFolder(cfg, st.fs, name);
              var final := FinalName(cfg, st.fs, name);
              && final !in Names(st.fs, dest)
              && Key(cfg.base, name) !in r.fs
              && Key(dest, final) in r.fs && r.fs[Key(dest, final)] == st.fs[Key(cfg.base, name)]
              && r.moved == Append(st.moved, dest, Join(dest, final))
    ensures r.errors != st.errors ==>
              && r.fs == st.fs && r.moved == st.moved
              && exists msg :: r.errors == st.errors + [ErrorLine(name, msg)]
  {
    if !Eligible(cfg, st.fs, name) then st
    else
      var src := Key(cfg.base, name);
      var dest := DestFolder(cfg, st.fs, name);
      var rn := NewName(cfg, st.fs, name);
      var renamed := st.renamed + if rn.changed then 1 else 0;
      var final := FinalName(cfg, st.fs, name);
      MoveInto(st, src, dest, final, renamed, name)
  }

  /** The move step of the loop: the record at `src` goes to `final` inside
      `dest` and the new path is recorded, or the error line is. */
  function MoveInto(st: State, src: Key, dest: Path, final: string, renamed: nat, name: string): (r: State)
    requires src in st.fs && Key(dest, final) !in st.fs
    ensures r.renamed == renamed
    ensures MoveError(st.fs, src).None? ==> r.errors == st.errors
    ensures MoveError(st.fs, src).Some? ==> r.errors == st.errors + [ErrorLine(name, MoveError(st.fs, src).value)]
    ensures r.errors == st.errors ==>
              && src !in r.fs
              && Key(dest, final) in r.fs && r.fs[Key(dest, final)] == st.fs[src]
              && r.moved == Append(st.moved, dest, Join(dest, final))
    ensures r.errors != st.errors ==>
              && r.fs == st.fs && r.moved == st.moved
              && exists msg :: r.errors == st.errors + [ErrorLine(name, msg)]
  {
    match Move(st.fs, src, Key(dest, final))
    case Success(fs') => State(fs', Append(st.moved, dest, Join(dest, final)), renamed, st.errors)
    case Failure(msg) => State(st.fs, st.moved, renamed, st.errors + [ErrorLine(name, msg)])
  }

  /** A move to a free name loses no entry, changes no entry but the source
      (so nothing outside the source's folder), keeps the per-folder lists well formed, and adds
      exactly one move or one error. */
  lemma MoveIntoInvariants(st: State, src: Key, dest: Path, final: string, renamed: nat, name: string)
    requires WellFormed(st.moved)
    requires src in st.fs && Key(dest, final) !in st.fs
    ensures var r := MoveInto(st, src, dest, final, renamed, name);
      && Total(r.moved) + |r.errors| == Total(st.moved) + |st.errors| + 1
      && |r.fs| == |st.fs|
      && (forall k :: k in st.fs && k != src ==> k in r.fs && r.fs[k] == st.fs[k])
      && UntouchedOutside(st.fs, r.fs, src.dir)
      && WellFormed(r.moved)
      && Total(st.moved) <= Total(r.moved)
      && |st.errors| <= |r.errors| && r.errors[..|st.errors|] == st.errors
  {
    var r := MoveInto(st, src, dest, final, renamed, name);
    assert r.errors[..|st.errors|] == st.errors;
    if Move(st.fs, src, Key(dest, final)).Success? {
      AppendTotal(st.moved, dest, Join(dest, final));
      AppendWellFormed(st.moved, dest, Join(dest, final));
    }
  }

  /** Handling one entry loses no entry, changes no entry but that one (so
      nothing outside the base folder), keeps the per-folder lists well formed, and adds one move or
      one error exactly when the entry is eligible. */
  lemma ProcessEntryInvariants(cfg: Config, st: State, name: string)
    requires WellFormed(st.moved)
    ensures var r := ProcessEntry(cfg, st, name);
      && Total(r.moved) + |r.errors| == Total(st.moved) + |st.errors| + (if Eligible(cfg, st.fs, name) then 1 else 0)
      && |r.fs| == |st.fs|
      && (forall k :: k in st.fs && k != Key(cfg.base, name) ==> k in r.fs && r.fs[k] == st.fs[k])
      && UntouchedOutside(st.fs, r.fs, cfg.base)
      && WellFormed(r.moved)
      && Total(st.moved) <= Total(r.moved)
      && r.renamed <= st.renamed + 1
      && |st.errors| <= |r.errors| && r.errors[..|st.errors|] == st.errors
  {
    if Eligible(cfg, st.fs, name) {
      var dest := DestFolder(cfg, st.fs, name);
      var final := FinalName(cfg, st.fs, name);
      var renamed := st.renamed + if NewName(cfg, st.fs, name).changed then 1 else 0;
      FinalNameFree(cfg, st.fs, name);
      MoveIntoInvariants(st, Key(cfg.base, name), dest, final, renamed, name);
      assert ProcessEntry(cfg, st, name) == MoveInto(st, Key(cfg.base, name), dest, final, renamed, name);
    }
  }

  /** The final name is free in the destination folder. */
  lemma FinalNameFree(cfg: Config, fs: Fs, name: string)
    requires Eligible(cfg, fs, name)
    ensures Key(DestFolder(cfg, fs, name), FinalName(cfg, fs, name)) !in fs
  {
  }

  /** The loop of `organize` over the remaining listed entries. */
  function OrganizeFrom(cfg: Config, st: State, listing: seq<string>): State
    decreases |listing|
  {
    if |listing| == 0 then st
    else OrganizeFrom(cfg, ProcessEntry(cfg, st, listing[0]), listing[1..])
  }

  /** `organize`: the loop over `os.listdir(base)`, given here as `listing`,
      starting from an empty record. Only entries of the base folder itself
      are looked at: the walk is not recursive. */
  function Organize(cfg: Config, fs: Fs, listing: seq<string>): (r: State)
    ensures |r.fs| == |fs|
    ensures UntouchedOutside(fs, r.fs, cfg.base)
    ensures WellFormed(r.moved)
    ensures Total(r.moved) + |r.errors| <= |listing|
    ensures r.renamed <= |listing|
  {
    OrganizeFromInvariants(cfg, State(fs, [], 0, []), listing);
    OrganizeFrom(cfg, State(fs, [], 0, []), listing)
  }

  /** Over a whole run: no entry is lost, nothing outside the base folder
      changes, the per-folder lists stay well formed, and each listed entry
      contributes at most one move or one error and at most one rename. */
  lemma {:induction false} OrganizeFromInvariants(cfg: Config, st: State, listing: seq<string>)
    requires WellFormed(st.moved)
    ensures var r := OrganizeFrom(cfg, st, listing);
      && |r.fs| == |st.fs|
      && UntouchedOutside(st.fs, r.fs, cfg.base)
      && WellFormed(r.moved)
      && Total(r.moved) + |r.errors| <= Total(st.moved) + |st.errors| + |listing|
      && r.renamed <= st.renamed + |listing|
      && Total(st.moved) <= Total(r.moved)
      && |st.errors| <= |r.errors| && r.errors[..|st.errors|] == st.errors
    decreases |listing|
  {
    if |listing| > 0 {
      var st' := ProcessEntry(cfg, st, listing[0]);
      ProcessEntryInvariants(cfg, st, listing[0]);
      OrganizeFromInvariants(cfg, st', listing[1..]);
      var r := OrganizeFrom(cfg, st', listing[1..]);
      assert r.errors[..|st'.errors|] == st'.errors;
      assert st'.errors[..|st.errors|] == st.errors;
    }
  }

  /** The summary `_get_results` returns (the duration is left out). */
  datatype Results = Results(
    totalMoved: nat,
    totalRenamed: nat,
    foldersCreated: seq<Path>,
    movedFiles: seq<Bucket>,
    errors: seq<string>)

  /** `get_results`: the moved total is the number of recorded paths, and
      when the dictionary is well formed each created folder appears once,
      with its own non-empty list of moved paths. */
  function GetResults(st: State): (r: Results)
    ensures r.movedFiles == st.moved && r.totalMoved == Total(st.moved)
    ensures r.totalRenamed == st.renamed && r.errors == st.errors
    ensures |r.foldersCreated| == |st.moved|
    ensures WellFormed(st.moved) ==>
              && (forall i, j :: 0 <= i < j < |r.foldersCreated| ==> r.foldersCreated[i] != r.foldersCreated[j])
              && (forall i :: 0 <= i < |r.foldersCreated| ==>
                    Lookup(st.moved, r.foldersCreated[i]) == st.moved[i].items && |st.moved[i].items| > 0)
  {
    var r := Results(Total(st.moved), st.renamed, Keys(st.moved), st.moved, st.errors);
    if WellFormed(st.moved) then FirstLookup(st.moved); r else r
  }

  /** What a run reports: each created folder is listed once and received at
      least one file, and the moves and errors together never exceed the
      number of listed entries. */
  lemma OrganizeResults(cfg: Config, fs: Fs, listing: seq<string>)
    ensures var r := GetResults(Organize(cfg, fs, listing));
      && r.totalMoved + |r.errors| <= |listing|
      && r.totalRenamed <= |listing|
      && (forall i, j :: 0 <= i < j < |r.foldersCreated| ==> r.foldersCreated[i] != r.foldersCreated[j])
      && (forall i :: 0 <= i < |r.foldersCreated| ==> |Lookup(r.movedFiles, r.foldersCreated[i])| > 0)
  {
  }
}

=== FILE: paths.dfy ===
/** POSIX path-string operations as `os.path` performs them: `join` of two
    parts, `basename` and `splitext`. Paths are plain strings; nothing is
    normalised. */
module Paths {
  import opened Text

  type Path = string

  /** `os.path.join(a, b)`: an absolute `b` replaces `a`; otherwise one `/`
      separates them unless `a` is empty or already ends in `/`. */
  function Join(a: Path, b: string): (r: Path)
    ensures StartsWith(b, "/") ==> r == b
    ensures !StartsWith(b, "/") ==> StartsWith(r, a) && |b| <= |r| && r[|r| - |b|..] == b
  {
    if |b| > 0 && b[0] == '/' then b
    else if |a| == 0 || a[|a| - 1] == '/' then a + b
    else a + "/" + b
  }

  /** `os.path.basename(p)`: everything after the last `/`. */
  function Basename(p: Path): (r: string)
    ensures '/' !in r
    ensures '/' !in p ==> r == p
    ensures |r| <= |p| && p[|p| - |r|..] == r
  {
    p[LastIndexOf(p, '/') + 1..]
  }

  /** For a relative `b`, the separator is added exactly when `a` is
      non-empty and does not already end in `/`. */
  lemma JoinSeparator(a: Path, b: string)
    requires !StartsWith(b, "/")
    ensures Join(a, b) == a + b <==> a == "" || a[|a| - 1] == '/'
    ensures Join(a, b) != a + b ==> Join(a, b) == a + "/" + b
  {
    if a != "" && a[|a| - 1] != '/' {
      assert |Join(a, b)| == |a| + 1 + |b|;
    }
  }

  /** The basename is the whole path, or what follows its last `/`. */
  lemma BasenameAfterSeparator(p: Path)
    ensures var r := Basename(p);
      r == p || (|r| < |p| && p[|p| - |r| - 1] == '/' && p == p[..|p| - |r|] + r)
  {
  }

  /** A name taken from a directory listing has no `/`, and is its own
      basename once joined to its directory. */
  lemma BasenameOfJoin(dir: Path, name: string)
    requires '/' !in name
    ensures Basename(Join(dir, name)) == name
  {
    var q := if |dir| == 0 || dir[|dir| - 1] == '/' then dir else dir + "/";
    assert Join(dir, name) == q + name;
    LastIndexOfAppend(q, name, '/');
    assert (q + name)[|q|..] == name;
  }

  /** There is a character other than `.` strictly between `lo` and `hi`. */
  predicate HasNonDotBetween(p: string, lo: int, hi: int)
    requires -1 <= lo && hi <= |p|
  {
    exists i :: lo < i < hi && p[i] != '.'
  }

  /** `os.path.splitext(p)`: split at the last `.` of the final component,
      unless every character before that dot in the component is a dot
      (leading dots do not start an extension), in which case the extension
      is empty. */
  function SplitExt(p: string): (r: (string, string))
    ensures r.0 + r.1 == p
    ensures r.1 == "" || (r.1[0] == '.' && '.' !in r.1[1..] && '/' !in r.1)
    ensures r.1 != "" ==> exists i :: LastIndexOf(p, '/') < i < |r.0| && p[i] != '.'
  {
    var sep := LastIndexOf(p, '/');
    var dot := LastIndexOf(p, '.');
    if sep < dot && HasNonDotBetween(p, sep, dot) then (p[..dot], p[dot..]) else (p, "")
  }

  /** The converse of the last clause of `SplitExt`: a dot in the final
      component with a non-dot before it starts an extension, and the
      extension then starts at the last dot of the name. */
  lemma SplitExtFindsExtension(p: string, i: int, j: int)
    requires LastIndexOf(p, '/') < i < j < |p| && p[i] != '.' && p[j] == '.'
    ensures SplitExt(p).1 != ""
    ensures |SplitExt(p).0| == LastIndexOf(p, '.')
  {
    var sep := LastIndexOf(p, '/');
    var dot := LastIndexOf(p, '.');
    assert j <= dot;
    assert HasNonDotBetween(p, sep, dot) by {
      assert sep < i < dot && p[i] != '.';
    }
  }

  /** `os.path.splitext(name)[1][1:].lower()`: the extension, lower-cased and
      without its dot. */
  function DotlessExt(name: string): (r: string)
    ensures '.' !in r
    ensures forall i :: 0 <= i < |r| ==> !IsUpperLetter(r[i])
    ensures |r| == if SplitExt(name).1 == "" then 0 else |SplitExt(name).1| - 1
    ensures forall i :: 0 <= i < |r| ==> r[i] == Lower(SplitExt(name).1[i + 1])
  {
    var ext := SplitExt(name).1;
    var raw := if |ext| == 0 then "" else ext[1..];
    assert forall i :: 0 <= i < |raw| ==> raw[i] != '.';
    LowerStr(raw)
  }
}

=== FILE: placement.dfy ===
/** Collision-safe placement, the naming rule shared by the three movers:
    keep the desired name when it is free, otherwise probe `base_1.ext`,
    `base_2.ext`, ... and take the first free one. `(base, ext)` is the
    `splitext` of the desired name, computed once, so suffixes never pile up. */
module Placement {
  import opened Text
  import opened Paths

  /** The name probed on the `k`-th collision: `f"{base}_{k}{ext}"`. */
  function Candidate(base: string, ext: string, k: nat): string {
    base + "_" + Decimal(k) + ext
  }

  /** Different counters give different candidates. */
  lemma CandidateInjective(base: string, ext: string, j: nat, k: nat)
    requires Candidate(base, ext, j) == Candidate(base, ext, k)
    ensures j == k
  {
    var cj := Candidate(base, ext, j);
    var ck := Candidate(base, ext, k);
    var dj := Decimal(j);
    var dk := Decimal(k);
    assert |dj| == |dk|;
    assert cj[|base| + 1..|base| + 1 + |dj|] == dj;
    assert ck[|base| + 1..|base| + 1 + |dk|] == dk;
    DecimalInjective(j, k);
  }

  /** A candidate is never the desired name it was derived from: it is longer. */
  lemma CandidateIsNotDesired(desired: string, k: nat)
    ensures Candidate(SplitExt(desired).0, SplitExt(desired).1, k) != desired
  {
    var base := SplitExt(desired).0;
    var ext := SplitExt(desired).1;
    assert |Candidate(base, ext, k)| > |desired|;
  }

  /** The first `n` candidates. */
  function Candidates(base: string, ext: string, n: nat): set<string> {
    set k | 1 <= k <= n :: Candidate(base, ext, k)
  }

  /** The first `n` candidates are pairwise distinct, so there are `n` of them. */
  lemma {:induction false} CandidatesSize(base: string, ext: string, n: nat)
    ensures |Candidates(base, ext, n)| == n
  {
    if n > 0 {
      CandidatesSize(base, ext, n - 1);
      var c := Candidate(base, ext, n);
      assert Candidates(base, ext, n) == Candidates(base, ext, n - 1) + {c};
      if c in Candidates(base, ext, n - 1) {
        var k :| 1 <= k <= n - 1 && Candidate(base, ext, k) == c;
        CandidateInjective(base, ext, k, n);
      }
    }
  }

  /** Pigeonhole: if the first `n` candidates are all taken, there are at
      least `n` taken names. */
  lemma Pigeonhole(taken: set<string>, base: string, ext: string, n: nat)
    requires forall k :: 1 <= k <= n ==> Candidate(base, ext, k) in taken
    ensures n <= |taken|
  {
    CandidatesSize(base, ext, n);
    assert Candidates(base, ext, n) <= taken;
    SubsetSize(Candidates(base, ext, n), taken);
  }

  lemma SubsetSize<T>(a: set<T>, b: set<T>)
    requires a <= b
    ensures |a| <= |b|
  {
    assert b == a + (b - a);
  }

  /** The probing loop started at counter `k`, every earlier candidate being
      taken. It stops after at most `|taken| + 1` probes. */
  function LeastFreeFrom(taken: set<string>, base: string, ext: string, k: nat): (r: nat)
    requires 1 <= k
    requires forall j :: 1 <= j < k ==> Candidate(base, ext, j) in taken
    ensures k <= r <= |taken| + 1
    ensures Candidate(base, ext, r) !in taken
    ensures forall j :: 1 <= j < r ==> Candidate(base, ext, j) in taken
    decreases |taken| + 1 - k
  {
    Pigeonhole(taken, base, ext, k - 1);
    if Candidate(base, ext, k) !in taken then k
    else
      Pigeonhole(taken, base, ext, k);
      LeastFreeFrom(taken, base, ext, k + 1)
  }

  /** The least counter `k >= 1` whose candidate is free. */
  function LeastFree(taken: set<string>, base: string, ext: string): (r: nat)
    ensures 1 <= r <= |taken| + 1
    ensures Candidate(base, ext, r) !in taken
    ensures forall j :: 1 <= j < r ==> Candidate(base, ext, j) in taken
  {
    LeastFreeFrom(taken, base, ext, 1)
  }

  /** The name a mover uses for a file that should be called `desired` in a
      folder whose existing entries are `taken`. */
  function ChooseName(taken: set<string>, desired: string): (r: string)
    ensures r !in taken
    ensures desired !in taken ==> r == desired
  {
    if desired !in taken then desired
    else
      var sp := SplitExt(desired);
      Candidate(sp.0, sp.1, LeastFree(taken, sp.0, sp.1))
  }

  /** A taken desired name is replaced by a candidate whose counter is at
      most `|taken| + 1` and all of whose predecessors are taken. */
  lemma ChooseNameCandidate(taken: set<string>, desired: string)
    requires desired in taken
    ensures exists k ::
              && 1 <= k <= |taken| + 1
              && ChooseName(taken, desired) == Candidate(SplitExt(desired).0, SplitExt(desired).1, k)
              && forall j :: 1 <= j < k ==> Candidate(SplitExt(desired).0, SplitExt(desired).1, j) in taken
  {
    var sp := SplitExt(desired);
    var k := LeastFree(taken, sp.0, sp.1);
    assert ChooseName(taken, desired) == Candidate(sp.0, sp.1, k);
  }

  /** The counter goes between the stem and the extension: the candidate
      splits into `base_k` and the same extension. */
  lemma CandidateKeepsExtension(p: string, k: nat)
    ensures SplitExt(Candidate(SplitExt(p).0, SplitExt(p).1, k))
         == (SplitExt(p).0 + "_" + Decimal(k), SplitExt(p).1)
  {
    var base := SplitExt(p).0;
    var ext := SplitExt(p).1;
    var mid := "_" + Decimal(k);
    assert '/' !in mid && '.' !in mid by {
      assert forall i :: 0 <= i < |mid| ==> mid[i] == '_' || IsDigit(mid[i]);
    }
    assert base + mid == base + "_" + Decimal(k);
    if ext == "" {
      SuffixWithoutExtension(p, mid);
      assert Candidate(base, ext, k) == p + mid;
    } else {
      SuffixBeforeExtension(base, ext, mid);
      assert Candidate(base, ext, k) == base + mid + ext;
    }
  }

  /** A name without extension keeps none when `mid` (no `.`, no `/`) is appended. */
  lemma SuffixWithoutExtension(p: string, mid: string)
    requires SplitExt(p).1 == ""
    requires '/' !in mid && '.' !in mid
    ensures SplitExt(p + mid) == (p + mid, "")
  {
    var c := p + mid;
    var sep := LastIndexOf(p, '/');
    var dot := LastIndexOf(p, '.');
    LastIndexOfAppend(p, mid, '/');
    LastIndexOfAppend(p, mid, '.');
  }

  /** Inserting `mid` (no `.`, no `/`) between a stem and its extension keeps the extension. */
  lemma SuffixBeforeExtension(base: string, ext: string, mid: string)
    requires ext != ""
    requires SplitExt(base + ext) == (base, ext)
    requires '/' !in mid && '.' !in mid
    ensures SplitExt(base + mid + ext) == (base + mid, ext)
  {
    var p := base + ext;
    var sp := SplitExt(p);
    assert sp.0 == base && sp.1 == ext;
    assert ext[0] == '.' && '/' !in ext && '.' !in ext[1..];
    var i :| LastIndexOf(p, '/') < i < |sp.0| && p[i] != '.';
    NonDotInStem(base, ext, i);
    var head := base + mid + ".";
    var tail := ext[1..];
    LastIndexOfAppend(base, mid, '/');
    assert head[..|head| - 1] == base + mid;
    assert head[i] == base[i];
    assert head + tail == base + mid + ext;
    SplitBeforeTail(head, tail, i);
  }

  /** Appending a slash-free part keeps a non-dot of the final component. */
  lemma NonDotInStem(base: string, ext: string, i: int)
    requires '/' !in ext
    requires LastIndexOf(base + ext, '/') < i < |base| && (base + ext)[i] != '.'
    ensures LastIndexOf(base, '/') < i < |base| && base[i] != '.'
  {
    LastIndexOfAppend(base, ext, '/');
    assert base[i] == (base + ext)[i];
  }

  /** A name ending in `.` then a dot-free, slash-free tail splits at that dot
      when its final component holds a non-dot before it. */
  lemma SplitBeforeTail(head: string, tail: string, i: int)
    requires |head| > 0 && head[|head| - 1] == '.'
    requires '/' !in tail && '.' !in tail
    requires LastIndexOf(head[..|head| - 1], '/') < i < |head| - 1 && head[i] != '.'
    ensures SplitExt(head + tail) == (head[..|head| - 1], "." + tail)
  {
    var c := head + tail;
    var n := |head| - 1;
    LastIndexOfAppend(head, tail, '/');
    LastIndexOfAppend(head, tail, '.');
    assert head == head[..n] + ".";
    LastIndexOfAppend(head[..n], ".", '/');
    assert LastIndexOf(head, '.') == n;
    assert c[i] == head[i];
    SplitAt(c, LastIndexOf(head, '/'), n);
    assert c[..n] == head[..n];
    assert c[n..] == "." + tail;
  }

  /** `splitext` cuts at the last dot when a non-dot precedes it in the final component. */
  lemma SplitAt(c: string, sep: int, dot: int)
    requires LastIndexOf(c, '/') == sep && LastIndexOf(c, '.') == dot
    requires sep < dot && HasNonDotBetween(c, sep, dot)
    ensures SplitExt(c) == (c[..dot], c[dot..])
  {
  }

  /** The names chosen when `n` files that all want `desired` are placed one
      after another into a folder that starts with the entries `taken`. */
  function PlaceMany(taken: set<string>, desired: string, n: nat): (r: seq<string>)
    ensures |r| == n
    decreases n
  {
    if n == 0 then []
    else
      var name := ChooseName(taken, desired);
      [name] + PlaceMany(taken + {name}, desired, n - 1)
  }

  /** None of the names in `r` was taken, and no name occurs twice. */
  predicate FreshNames(taken: set<string>, r: seq<string>) {
    && (forall i :: 0 <= i < |r| ==> r[i] !in taken)
    && (forall i, j :: 0 <= i < j < |r| ==> r[i] != r[j])
  }

  /** A fresh name in front of names fresh for the enlarged folder. */
  lemma FreshCons(taken: set<string>, x: string, rest: seq<string>)
    requires x !in taken
    requires FreshNames(taken + {x}, rest)
    ensures FreshNames(taken, [x] + rest)
  {
    var r := [x] + rest;
    forall i | 0 < i < |r|
      ensures r[i] !in taken && r[i] != x
    {
      assert r[i] == rest[i - 1];
    }
    forall i, j | 0 <= i < j < |r|
      ensures r[i] != r[j]
    {
      assert r[j] == rest[j - 1];
      if i > 0 {
        assert r[i] == rest[i - 1];
      }
    }
  }

  /** Successive placements never reuse a name: the chosen names are pairwise
      distinct and none of them was taken before. */
  lemma {:induction false} PlaceManyFresh(taken: set<string>, desired: string, n: nat)
    ensures FreshNames(taken, PlaceMany(taken, desired, n))
    decreases n
  {
    if n > 0 {
      var name := ChooseName(taken, desired);
      PlaceManyStep(taken, desired, n);
      PlaceManyFresh(taken + {name}, desired, n - 1);
      FreshCons(taken, name, PlaceMany(taken + {name}, desired, n - 1));
    }
  }

  /** Placing `n` files named `desired` into a folder where neither that name
      nor its first candidates exist yields `desired`, `base_1.ext`, ...,
      `base_(n-1).ext` in that order. */
  lemma PlaceManyNames(taken: set<string>, desired: string, n: nat)
    requires 1 <= n
    requires desired !in taken
    requires forall k :: 1 <= k < n ==> Candidate(SplitExt(desired).0, SplitExt(desired).1, k) !in taken
    ensures PlaceMany(taken, desired, n) == [desired] + Run(SplitExt(desired).0, SplitExt(desired).1, 1, n - 1)
  {
    var base := SplitExt(desired).0;
    var ext := SplitExt(desired).1;
    var t := taken + {desired};
    forall k | 0 < k <= n - 1
      ensures Candidate(base, ext, k) !in t
    {
      CandidateIsNotDesired(desired, k);
    }
    PlaceManyStep(taken, desired, n);
    PlaceManyAfter(t, desired, base, ext, 0, n - 1);
  }

  /** The first placement, then the rest into the folder that now holds it. */
  lemma PlaceManyStep(taken: set<string>, desired: string, n: nat)
    requires 1 <= n
    ensures PlaceMany(taken, desired, n)
         == [ChooseName(taken, desired)] + PlaceMany(taken + {ChooseName(taken, desired)}, desired, n - 1)
  {
  }

  /** The candidates `from` to `from + n - 1`, in order. */
  function Run(base: string, ext: string, from: nat, n: nat): (r: seq<string>)
    ensures |r| == n
    decreases n
  {
    if n == 0 then [] else [Candidate(base, ext, from)] + Run(base, ext, from + 1, n - 1)
  }

  /** Once `desired` and its first `m` candidates are taken, the next `n`
      placements take candidates `m + 1` to `m + n`. */
  lemma {:induction false} PlaceManyAfter(t: set<string>, desired: string, base: string, ext: string, m: nat, n: nat)
    requires base == SplitExt(desired).0 && ext == SplitExt(desired).1
    requires desired in t
    requires forall k :: 1 <= k <= m ==> Candidate(base, ext, k) in t
    requires forall k :: m < k <= m + n ==> Candidate(base, ext, k) !in t
    ensures PlaceMany(t, desired, n) == Run(base, ext, m + 1, n)
    decreases n
  {
    if n > 0 {
      var c := Candidate(base, ext, m + 1);
      NextPlacement(t, desired, base, ext, m);
      PlaceManyStep(t, desired, n);
      StillFree(t, base, ext, m, n);
      PlaceManyAfter(t + {c}, desired, base, ext, m + 1, n - 1);
    }
  }

  /** Taking candidate `m + 1` keeps candidates `1` to `m + 1` taken and leaves
      the later ones free. */
  lemma StillFree(t: set<string>, base: string, ext: string, m: nat, n: nat)
    requires forall k :: 1 <= k <= m ==> Candidate(base, ext, k) in t
    requires forall k :: m < k <= m + n ==> Candidate(base, ext, k) !in t
    ensures forall k :: 1 <= k <= m + 1 ==> Candidate(base, ext, k) in t + {Candidate(base, ext, m + 1)}
    ensures forall k :: m + 1 < k <= m + n ==> Candidate(base, ext, k) !in t + {Candidate(base, ext, m + 1)}
  {
    forall k | m + 1 < k <= m + n
      ensures Candidate(base, ext, k) != Candidate(base, ext, m + 1)
    {
      if Candidate(base, ext, k) == Candidate(base, ext, m + 1) {
        CandidateInjective(base, ext, k, m + 1);
      }
    }
  }

  /** With `desired` and its first `m` candidates taken and candidate `m + 1`
      free, the next placement takes candidate `m + 1`. */
  lemma NextPlacement(t: set<string>, desired: string, base: string, ext: string, m: nat)
    requires base == SplitExt(desired).0 && ext == SplitExt(desired).1
    requires desired in t
    requires forall k :: 1 <= k <= m ==> Candidate(base, ext, k) in t
    requires Candidate(base, ext, m + 1) !in t
    ensures ChooseName(t, desired) == Candidate(base, ext, m + 1)
  {
    assert LeastFree(t, base, ext) == m + 1;
  }
}

=== FILE: renaming.dfy ===
/** The rename pipeline applied to every file the organiser moves: strip
    Windows-style duplicate marks, apply at most one space transform, then
    compose the prefix and date. */
module Renaming {
  import opened Text
  import opened Paths
  import opened Dates

  /** The keys of the rename configuration, each read with `.get(key, default)`.
      `use_creation_date` is read by the source but never used. */
  datatype RenameConfig = RenameConfig(
    cleanDuplicates: bool,  // clean_windows_duplicates
    removeSpaces: bool,     // remove_spaces
    replaceSpaces: bool,    // replace_spaces
    camelCase: bool,        // camel_case_spaces
    prefix: string,         // prefix, "" when absent
    addDate: bool)          // add_date

  /** The outcome of renaming one file: the new file name, and whether its
      stem differs from the original stem (what bumps `renamed_count`). */
  datatype Renamed = Renamed(name: string, changed: bool)

  /** Length of the run of digits at the start of `s`. */
  function DigitRun(s: string): (n: nat)
    ensures n <= |s|
    ensures forall i :: 0 <= i < n ==> IsDigit(s[i])
    ensures n < |s| ==> !IsDigit(s[n])
  {
    if |s| == 0 || !IsDigit(s[0]) then 0 else 1 + DigitRun(s[1..])
  }

  /** `s` starts with a match of `\s\(\d+\)` that is `n` characters long. */
  predicate MarkOfLength(s: string, n: nat) {
    4 <= n <= |s| && IsSpace(s[0]) && s[1] == '(' && s[n - 1] == ')'
    && forall i :: 2 <= i < n - 1 ==> IsDigit(s[i])
  }

  /** The length of the duplicate mark `\s\(\d+\)` at the start of `s`, or 0
      when the pattern does not match there. */
  function MarkLen(s: string): (n: nat)
    ensures n > 0 ==> MarkOfLength(s, n)
    ensures forall m :: MarkOfLength(s, m) ==> n == m
  {
    if |s| >= 2 && IsSpace(s[0]) && s[1] == '(' then
      var d := DigitRun(s[2..]);
      if 1 <= d && 2 + d < |s| && s[2 + d] == ')' then 3 + d else 0
    else 0
  }

  /** A duplicate mark occurs somewhere in `s`. */
  predicate HasMark(s: string) {
    exists i :: 0 <= i < |s| && MarkLen(s[i..]) > 0
  }

  lemma HasMarkCons(s: string)
    requires |s| > 0
    ensures HasMark(s) <==> MarkLen(s) > 0 || HasMark(s[1..])
  {
    if HasMark(s[1..]) {
      var i :| 0 <= i < |s[1..]| && MarkLen(s[1..][i..]) > 0;
      assert s[1..][i..] == s[i + 1..];
    }
    if HasMark(s) && MarkLen(s) == 0 {
      var i :| 0 <= i < |s| && MarkLen(s[i..]) > 0;
      assert i > 0;
      assert s[1..][i - 1..] == s[i..];
    }
    if MarkLen(s) > 0 {
      assert s[0..] == s;
    }
  }

  /** `re.sub(r"\s\(\d+\)", "", s)`: every match found scanning left to right
      is removed. The result never grows, and it equals `s` exactly when `s`
      holds no mark. */
  function StripMarks(s: string): (r: string)
    ensures |r| <= |s|
    ensures r == s <==> !HasMark(s)
    decreases |s|
  {
    if |s| == 0 then ""
    else
      HasMarkCons(s);
      var n := MarkLen(s);
      if n > 0 then StripMarks(s[n..])
      else [s[0]] + StripMarks(s[1..])
  }

  /** A mark is removed whole, the text before it is kept as it is when no
      mark starts inside that text, and `re.sub` resumes scanning right after
      the removed match. */
  lemma {:induction false} StripMarksSkip(a: string, m: string, b: string)
    requires forall i :: 0 <= i < |a| ==> MarkLen((a + m + b)[i..]) == 0
    requires |m| > 0 && MarkLen(m + b) == |m|
    ensures StripMarks(a + m + b) == a + StripMarks(b)
    decreases |a|
  {
    var s := a + m + b;
    if |a| == 0 {
      assert s == m + b;
      assert s[|m|..] == b;
      assert StripMarks(s) == StripMarks(b);
    } else {
      assert s[0..] == s;
      assert MarkLen(s) == 0;
      var t := a[1..] + m + b;
      assert s[1..] == t;
      assert StripMarks(s) == [a[0]] + StripMarks(t);
      forall i | 0 <= i < |a[1..]|
        ensures MarkLen(t[i..]) == 0
      {
        assert t[i..] == s[i + 1..];
      }
      StripMarksSkip(a[1..], m, b);
      ConsSplit(a, StripMarks(b));
    }
  }

  /** A Windows copy name loses its mark and keeps the space inside the stem:
      "My File (1)" becomes "My File". */
  lemma StripMarksExample()
    ensures StripMarks("My File (1)") == "My File"
  {
    var s := "My File (1)";
    assert s == "My File" + " (1)" + "";
    forall i | 0 <= i < 7
      ensures MarkLen(s[i..]) == 0
    {
      assert s[i + 1] != '(';
    }
    assert MarkLen(" (1)" + "") == 4 by {
      var mk := " (1)";
      assert mk + "" == mk && mk[2..] == "1)" && "1)"[1..] == ")";
      assert IsSpace(mk[0]) && IsDigit('1') && !IsDigit(')');
      assert DigitRun(")") == 0;
      assert DigitRun("1)") == 1;
    }
    StripMarksSkip("My File", " (1)", "");
  }

  /** Re-attaching the first character of a non-empty `a`. */
  lemma ConsSplit(a: string, rest: string)
    requires |a| > 0
    ensures [a[0]] + (a[1..] + rest) == a + rest
  {
    assert a == [a[0]] + a[1..];
  }

  /** `re.sub(r" (.)", lambda m: m.group(1).upper(), s)`: a space and the
      character after it (any but a newline) become that character upper-cased. */
  function CamelJoin(s: string): (r: string)
    ensures |r| <= |s|
    ensures ' ' !in s ==> r == s
  {
    if |s| >= 2 && s[0] == ' ' && s[1] != '\n' then [Upper(s[1])] + CamelJoin(s[2..])
    else if |s| == 0 then ""
    else [s[0]] + CamelJoin(s[1..])
  }

  /** Each space followed by a character other than a newline is dropped and
      that character upper-cased; text without spaces before it is kept. */
  lemma {:induction false} CamelJoinSpace(a: string, x: char, b: string)
    requires ' ' !in a && x != '\n'
    ensures CamelJoin(a + [' ', x] + b) == a + [Upper(x)] + CamelJoin(b)
    decreases |a|
  {
    var s := a + [' ', x] + b;
    if |a| == 0 {
      assert s == [' ', x] + b;
      assert s[2..] == b;
    } else {
      assert s[0] == a[0] != ' ';
      assert s[1..] == a[1..] + [' ', x] + b;
      CamelJoinSpace(a[1..], x, b);
      ConsSplit(a, [Upper(x)] + CamelJoin(b));
    }
  }

  /** A space that ends the text has no character after it to join, so it is
      kept, together with the space-free text before it. */
  lemma {:induction false} CamelJoinTrailing(a: string)
    requires ' ' !in a
    ensures CamelJoin(a + [' ']) == a + [' ']
    decreases |a|
  {
    var s := a + [' '];
    if |a| > 0 {
      assert s[0] == a[0] != ' ';
      assert s[1..] == a[1..] + [' '];
      CamelJoinTrailing(a[1..]);
      ConsSplit(a, [' ']);
    }
  }

  /** `.` does not match a newline, so a space before one is kept, and
      scanning resumes at the newline itself. */
  lemma {:induction false} CamelJoinNewline(a: string, b: string)
    requires ' ' !in a
    ensures CamelJoin(a + [' ', '\n'] + b) == a + [' ', '\n'] + CamelJoin(b)
    decreases |a|
  {
    if |a| == 0 {
      assert a + [' ', '\n'] + b == [' ', '\n'] + b;
      NewlineAfterSpace(b);
    } else {
      var s := a + [' ', '\n'] + b;
      assert s[0] == a[0] != ' ';
      assert s[1..] == a[1..] + [' ', '\n'] + b;
      assert CamelJoin(s) == [a[0]] + CamelJoin(s[1..]);
      CamelJoinNewline(a[1..], b);
      ConsSplit3(a, [' ', '\n'], CamelJoin(b));
    }
  }

  /** The base case of `CamelJoinNewline`: the space and the newline are both kept. */
  lemma NewlineAfterSpace(b: string)
    ensures CamelJoin([' ', '\n'] + b) == [' ', '\n'] + CamelJoin(b)
  {
    var t := ['\n'] + b;
    var s := [' '] + t;
    assert s == [' ', '\n'] + b;
    assert t[0] == '\n' && t[1..] == b;
    assert CamelJoin(t) == ['\n'] + CamelJoin(b);
    assert s[0] == ' ' && s[1] == '\n' && s[1..] == t;
    assert CamelJoin(s) == [' '] + CamelJoin(t);
    PairSplit(' ', '\n', CamelJoin(b));
  }

  /** Re-attaching the first character of a non-empty `a` before two more parts. */
  lemma ConsSplit3(a: string, m: string, rest: string)
    requires |a| > 0
    ensures [a[0]] + (a[1..] + m + rest) == a + m + rest
  {
    assert a == [a[0]] + a[1..];
  }

  /** Two leading characters, attached one at a time. */
  lemma PairSplit(x: char, y: char, rest: string)
    ensures [x] + ([y] + rest) == [x, y] + rest
  {
  }

  /** `_clean_name`: optional mark stripping, then the first of
      remove / replace / camel-case that is switched on. */
  function CleanName(cfg: RenameConfig, stem: string): (r: string)
    ensures |r| <= |stem|
    ensures cfg.removeSpaces ==> ' ' !in r
    ensures !cfg.removeSpaces && cfg.replaceSpaces ==> ' ' !in r
    ensures !cfg.removeSpaces && !cfg.replaceSpaces && cfg.camelCase ==> ' ' !in r
    ensures !cfg.cleanDuplicates && !cfg.removeSpaces && cfg.replaceSpaces ==> |r| == |stem|
    ensures !cfg.cleanDuplicates && !cfg.removeSpaces && !cfg.replaceSpaces && !cfg.camelCase ==> r == stem
    ensures ' ' !in stem && !HasMark(stem) ==> r == stem
  {
    var s := if cfg.cleanDuplicates then StripMarks(stem) else stem;
    assert ' ' !in stem ==> ' ' !in s by {
      if cfg.cleanDuplicates && ' ' !in stem && ' ' in s {
        StripKeepsAbsent(stem, ' ');
      }
    }
    if cfg.removeSpaces then RemoveChar(s, ' ')
    else if cfg.replaceSpaces then ReplaceChar(s, ' ', '_')
    else if cfg.camelCase then RemoveChar(CamelJoin(s), ' ')
    else s
  }

  /** The space options are tried in order: removing spaces overrides the
      other two, and replacing them overrides camel case. */
  lemma CleanNamePrecedence(cfg: RenameConfig, stem: string)
    ensures cfg.removeSpaces
      ==> CleanName(cfg, stem) == CleanName(cfg.(replaceSpaces := false, camelCase := false), stem)
    ensures !cfg.removeSpaces && cfg.replaceSpaces
      ==> CleanName(cfg, stem) == CleanName(cfg.(camelCase := false), stem)
  {
  }

  /** Stripping marks only deletes characters: a character absent before is absent after. */
  lemma {:induction false} StripKeepsAbsent(s: string, c: char)
    requires c !in s
    ensures c !in StripMarks(s)
    decreases |s|
  {
    if |s| > 0 {
      var n := MarkLen(s);
      if n > 0 {
        assert forall i :: 0 <= i < |s[n..]| ==> s[n..][i] == s[n + i];
        StripKeepsAbsent(s[n..], c);
      } else {
        assert forall i :: 0 <= i < |s[1..]| ==> s[1..][i] == s[1 + i];
        StripKeepsAbsent(s[1..], c);
      }
    }
  }

  /** Prefix and date composition on a cleaned stem. */
  function ComposeStem(cfg: RenameConfig, stem: string, dt: DateTime): (r: string)
    ensures |stem| <= |r| && r[|r| - |stem|..] == stem
    ensures r == stem <==> !cfg.addDate && cfg.prefix == ""
  {
    if cfg.addDate then cfg.prefix + "_" + DayLabel(dt) + "_" + stem
    else if cfg.prefix != "" then cfg.prefix + "_" + stem
    else stem
  }

  /** A concatenation starts with its first part and ends with its second. */
  lemma ConcatParts(a: string, b: string)
    ensures StartsWith(a + b, a)
    ensures (a + b)[..|a|] == a && (a + b)[|a|..] == b
  {
  }

  /** The configuration under which the pipeline does nothing. */
  predicate NoRename(cfg: RenameConfig) {
    !cfg.cleanDuplicates && !cfg.removeSpaces && !cfg.replaceSpaces && !cfg.camelCase
    && cfg.prefix == "" && !cfg.addDate
  }

  /** `_rename_file`: the new file name keeps the original extension from
      `splitext` and is flagged as changed exactly when its stem differs from
      the original stem; with nothing switched on, the name is kept. */
  function RenameFile(cfg: RenameConfig, filename: string, dt: DateTime): (r: Renamed)
    ensures var ext := SplitExt(filename).1;
      |ext| <= |r.name| && r.name[|r.name| - |ext|..] == ext
      && (r.changed <==> r.name[..|r.name| - |ext|] != SplitExt(filename).0)
    ensures NoRename(cfg) ==> r == Renamed(filename, false)
  {
    var sp := SplitExt(filename);
    var newStem := ComposeStem(cfg, CleanName(cfg, sp.0), dt);
    ConcatParts(newStem, sp.1);
    Renamed(newStem + sp.1, newStem != sp.0)
  }

  /** A name built from a front part, a stem and an extension starts with
      the front part. */
  lemma FrontOf(front: string, stem: string, ext: string)
    ensures StartsWith((front + stem) + ext, front)
  {
    assert (front + stem) + ext == front + (stem + ext);
    ConcatParts(front, stem + ext);
  }

  /** With the date added, the new name starts with the prefix and the day
      label. */
  lemma RenameFileDated(cfg: RenameConfig, filename: string, dt: DateTime)
    requires cfg.addDate
    ensures StartsWith(RenameFile(cfg, filename, dt).name, cfg.prefix + "_" + DayLabel(dt) + "_")
    ensures RenameFile(cfg, filename, dt).name
      == cfg.prefix + "_" + DayLabel(dt) + "_" + CleanName(cfg, SplitExt(filename).0) + SplitExt(filename).1
  {
    var sp := SplitExt(filename);
    var front := cfg.prefix + "_" + DayLabel(dt) + "_";
    var cleaned := CleanName(cfg, sp.0);
    assert ComposeStem(cfg, cleaned, dt) == front + cleaned;
    FrontOf(front, cleaned, sp.1);
  }

  /** With a prefix and no date, the new name starts with the prefix. */
  lemma RenameFilePrefixed(cfg: RenameConfig, filename: string, dt: DateTime)
    requires !cfg.addDate && cfg.prefix != ""
    ensures StartsWith(RenameFile(cfg, filename, dt).name, cfg.prefix + "_")
    ensures RenameFile(cfg, filename, dt).name
      == cfg.prefix + "_" + CleanName(cfg, SplitExt(filename).0) + SplitExt(filename).1
  {
    var sp := SplitExt(filename);
    var front := cfg.prefix + "_";
    var cleaned := CleanName(cfg, sp.0);
    assert ComposeStem(cfg, cleaned, dt) == front + cleaned;
    FrontOf(front, cleaned, sp.1);
  }

  /** With neither prefix nor date, the new stem is the cleaned stem. */
  lemma RenameFilePlain(cfg: RenameConfig, filename: string, dt: DateTime)
    requires !cfg.addDate && cfg.prefix == ""
    ensures var r := RenameFile(cfg, filename, dt);
      r.name[..|r.name| - |SplitExt(filename).1|] == CleanName(cfg, SplitExt(filename).0)
  {
    var sp := SplitExt(filename);
    ConcatParts(CleanName(cfg, sp.0), sp.1);
  }
}

=== FILE: text.dfy ===
/** Character and string helpers restricted to ASCII: case mapping, the
    character classes `\s` and `\d`, prefix and substring tests, and the
    decimal rendering used in `f"{counter}"` and `strftime`. */
module Text {

  /** What `\d` matches once the model is restricted to ASCII. */
  predicate IsDigit(c: char) {
    '0' <= c <= '9'
  }

  /** Python's `str.isspace` (and so `\s`) on ASCII: the space, the controls
      TAB..CR (9-13) and the separators FS..US (28-31). */
  predicate IsSpace(c: char) {
    c == ' ' || 9 <= c as int <= 13 || 28 <= c as int <= 31
  }

  predicate IsUpperLetter(c: char) {
    'A' <= c <= 'Z'
  }

  /** `str.upper` on one ASCII character. */
  function Upper(c: char): (r: char)
    ensures !('a' <= r <= 'z')
    ensures !('a' <= c <= 'z') ==> r == c
  {
    if 'a' <= c <= 'z' then (c as int - 32) as char else c
  }

  /** `str.lower` on one ASCII character. */
  function Lower(c: char): (r: char)
    ensures !IsUpperLetter(r)
    ensures !IsUpperLetter(c) ==> r == c
  {
    if IsUpperLetter(c) then (c as int + 32) as char else c
  }

  /** `str.lower` on an ASCII string. */
  function LowerStr(s: string): (r: string)
    ensures |r| == |s|
    ensures forall i :: 0 <= i < |s| ==> r[i] == Lower(s[i])
  {
    seq(|s|, i requires 0 <= i < |s| => Lower(s[i]))
  }

  /** `str.upper` on an ASCII string. */
  function UpperStr(s: string): (r: string)
    ensures |r| == |s|
    ensures forall i :: 0 <= i < |s| ==> r[i] == Upper(s[i])
  {
    seq(|s|, i requires 0 <= i < |s| => Upper(s[i]))
  }

  /** `s.startswith(prefix)`. */
  predicate StartsWith(s: string, prefix: string) {
    |prefix| <= |s| && s[..|prefix|] == prefix
  }

  /** `s.startswith(prefixes)` with a tuple argument: true when any of them is a prefix. */
  predicate StartsWithAny(s: string, prefixes: seq<string>) {
    exists i :: 0 <= i < |prefixes| && StartsWith(s, prefixes[i])
  }

  /** `a in b` for two strings: `a` occurs somewhere in `b`. */
  predicate IsSubstring(a: string, b: string) {
    exists i :: 0 <= i <= |b| - |a| && OccursAt(a, b, i)
  }

  /** `a` occurs in `b` starting at index `i`. */
  predicate OccursAt(a: string, b: string, i: int)
    requires 0 <= i <= |b| - |a|
  {
    b[i..i + |a|] == a
  }

  /** `s.replace(old, new)` for single characters. */
  function ReplaceChar(s: string, from: char, to: char): (r: string)
    ensures |r| == |s|
    ensures forall i :: 0 <= i < |s| ==> r[i] == (if s[i] == from then to else s[i])
  {
    seq(|s|, i requires 0 <= i < |s| => if s[i] == from then to else s[i])
  }

  /** `s.replace(c, "")`: every `c` dropped, the rest kept in order. */
  function RemoveChar(s: string, c: char): (r: string)
    ensures c !in r
    ensures |r| <= |s|
    ensures c !in s ==> r == s
    ensures c in s ==> |r| < |s|
  {
    if |s| == 0 then ""
    else if s[0] == c then RemoveChar(s[1..], c)
    else [s[0]] + RemoveChar(s[1..], c)
  }

  /** `RemoveChar` works character by character: it distributes over
      concatenation, and on one character it keeps exactly the characters
      other than `c`. Together these determine it. */
  lemma {:induction false} RemoveCharAppend(a: string, b: string, c: char)
    ensures RemoveChar(a + b, c) == RemoveChar(a, c) + RemoveChar(b, c)
    ensures |a| == 1 ==> RemoveChar(a, c) == if a[0] == c then "" else a
  {
    if |a| > 0 {
      assert (a + b)[1..] == a[1..] + b;
      RemoveCharAppend(a[1..], b, c);
    } else {
      assert a + b == b;
    }
  }

  /** Index of the last `c` in `s`, or -1 (`str.rfind`). */
  function LastIndexOf(s: string, c: char): (r: int)
    ensures -1 <= r < |s|
    ensures r >= 0 ==> s[r] == c
    ensures forall j :: r < j < |s| ==> s[j] != c
  {
    if |s| == 0 then -1
    else if s[|s| - 1] == c then |s| - 1
    else LastIndexOf(s[..|s| - 1], c)
  }

  /** Appending characters other than `c` does not move the last `c`. */
  lemma {:induction false} LastIndexOfAppend(a: string, b: string, c: char)
    requires c !in b
    ensures LastIndexOf(a + b, c) == LastIndexOf(a, c)
    decreases |b|
  {
    if |b| > 0 {
      assert (a + b)[..|a + b| - 1] == a + b[..|b| - 1];
      LastIndexOfAppend(a, b[..|b| - 1], c);
    } else {
      assert a + b == a;
    }
  }

  /** The value of the digit character for `d < 10`. */
  function DigitChar(d: nat): (c: char)
    requires d < 10
    ensures IsDigit(c)
  {
    ('0' as int + d) as char
  }

  predicate AllDigits(s: string) {
    forall i :: 0 <= i < |s| ==> IsDigit(s[i])
  }

  /** The decimal rendering of a natural number, as `str(n)` gives it. */
  function Decimal(n: nat): (r: string)
    ensures 1 <= |r|
    ensures AllDigits(r)
    ensures n < 10 <==> |r| == 1
  {
    if n < 10 then [DigitChar(n)] else Decimal(n / 10) + [DigitChar(n % 10)]
  }

  /** `str(n)` has no leading zero: it starts with `0` only for `n == 0`,
      whose rendering is the single digit. */
  lemma {:induction false} DecimalNoLeadingZero(n: nat)
    ensures Decimal(n)[0] == '0' <==> n == 0
    ensures |Decimal(n)| > 1 ==> Decimal(n)[0] != '0'
    decreases n
  {
    if n >= 10 {
      DecimalNoLeadingZero(n / 10);
      assert Decimal(n)[0] == Decimal(n / 10)[0];
    }
  }

  /** Reads a string of digits back as a number (the inverse of `Decimal`). */
  function DigitsValue(s: string): nat
    requires AllDigits(s)
  {
    if |s| == 0 then 0
    else DigitsValue(s[..|s| - 1]) * 10 + (s[|s| - 1] as int - '0' as int)
  }

  /** `Decimal` is undone by `DigitsValue`. */
  lemma {:induction false} DecimalRoundTrip(n: nat)
    ensures DigitsValue(Decimal(n)) == n
  {
    if n >= 10 {
      DecimalRoundTrip(n / 10);
      var s := Decimal(n);
      assert s[..|s| - 1] == Decimal(n / 10);
    }
  }

  /** Two numbers with the same decimal rendering are equal. */
  lemma DecimalInjective(m: nat, n: nat)
    requires Decimal(m) == Decimal(n)
    ensures m == n
  {
    DecimalRoundTrip(m);
    DecimalRoundTrip(n);
  }

  /** `n` rendered with at least `width` digits, left-padded with zeros
      (`strftime`'s `%m`, `%d`, `%H`, `%M` and, for four-digit years, `%Y`). */
  function Pad(n: nat, width: nat): (r: string)
    ensures AllDigits(r)
    ensures |r| == if |Decimal(n)| < width then width else |Decimal(n)|
  {
    var d := Decimal(n);
    if |d| < width then seq(width - |d|, _ => '0') + d else d
  }

  /** Leading zeros do not change the value of a digit string. */
  lemma {:induction false} LeadingZeros(z: string, s: string)
    requires forall i :: 0 <= i < |z| ==> z[i] == '0'
    requires AllDigits(s)
    ensures AllDigits(z + s)
    ensures DigitsValue(z + s) == DigitsValue(s)
    decreases |s|
  {
    if |s| == 0 {
      assert z + s == z;
      ZerosValue(z);
    } else {
      var t := z + s;
      assert t[..|t| - 1] == z + s[..|s| - 1];
      LeadingZeros(z, s[..|s| - 1]);
    }
  }

  lemma {:induction false} ZerosValue(z: string)
    requires forall i :: 0 <= i < |z| ==> z[i] == '0'
    ensures AllDigits(z)
    ensures DigitsValue(z) == 0
  {
    if |z| > 0 {
      ZerosValue(z[..|z| - 1]);
    }
  }

  /** `Pad` is undone by `DigitsValue` too. */
  lemma PadRoundTrip(n: nat, width: nat)
    ensures DigitsValue(Pad(n, width)) == n
  {
    var d := Decimal(n);
    DecimalRoundTrip(n);
    if |d| < width {
      LeadingZeros(seq(width - |d|, _ => '0'), d);
    }
  }

  /** A number below `10^width` has at most `width` digits. */
  lemma DecimalBound(n: nat, width: nat)
    requires 1 <= width
    requires n < Pow10(width)
    ensures |Decimal(n)| <= width
    decreases width
  {
    if n >= 10 {
      DecimalBound(n / 10, width - 1);
    }
  }

  function Pow10(k: nat): (r: nat)
    ensures r >= 1
  {
    if k == 0 then 1 else 10 * Pow10(k - 1)
  }
}

=== FILE: wrappers.dfy ===
/** Option and Result, the two failure-carrying shapes the engines use in place
    of Python's `None` returns and raised exceptions. */
module Wrappers {

  /** A value that may be absent (`None` in the source). */
  datatype Option<+T> = None | Some(value: T)

  /** Either a value or an error message (an exception's `str(e)`). */
  datatype Result<+R> = Success(value: R) | Failure(message: string)
}
